=== FILE: README.md ===
# Exam client state machine — a Dafny model

The exam client (`frontend/src/App.jsx`) is a single React component. The user
uploads a document and receives a summary plus a question set per difficulty
level (easy, medium, hard). They then take an exam made of multiple-choice
questions and one drag-and-drop matching question, and see a scored review.
This project models that component's state and the handlers its controls call,
as immutable datatypes and pure functions, and proves what the code guarantees.

- `common.dfy` (`Common`): `Option`, distinctness, and the decimal rendering
  that `prompt-${i}` and `answer-${i}` use, with a parse round trip that makes
  those ids injective.
- `matching.dfy` (`Matching`): the matching board. The ordered `answerPool`,
  and `droppedAnswers` as an ordered list of properties. JavaScript objects
  visit string keys in insertion order and `Object.values(...).find` depends
  on it. `Drop` is `handleDragEnd`, branch for branch.
- `matching_laws.dfy` (`MatchingLaws`): counting laws for the board. It covers
  the effect of a drop on a slot and on the pool, the no-op drops, and
  conservation and uniqueness of cards. It also covers the self-drop that
  breaks uniqueness, and the fresh board `startExam` builds.
- `exam.dfy` (`Exam`): questions per level and the multiple-choice answers
  (`handleMCQAnswerChange`).
- `grading.dfy` (`Grading`): the review record and score of
  `handleSubmitExam`. `Grade` runs both passes as loops, and is proved to build
  the functional `ReviewOf` and its `Score`.
- `flow.dfy` (`Flow`): the full component state, one event per control,
  `startOver`, the upload as a click and a later reply, and the completion
  effect. `Offered` says which
  controls the current screen renders. Every sequence of offered events from
  the first render never makes a handler throw, and it keeps the invariant
  `Consistent`.

Behaviours of the code worth knowing:

- **Self-drop.** A card dropped onto the slot that already holds it is
  appended to the pool and written back into the slot, so the card ends up in
  two places (`SelfDropDuplicates`). Uniqueness of cards is therefore proved
  only for drops that are not self-drops (`DropConserves`, `ReplayConserves`).
  The flow invariant keeps only the facts that survive a self-drop: same
  cards, and one card per id.
- **The pool is not a droppable.** Only the `prompt-${i}` slots are
  registered as droppables, so the pool branch of the drag handler cannot be
  reached from the screen (`PoolBranchUnreachable`). That branch is still
  modelled and proved.
- **Back buttons.** The difficulty screen can go back to the summary, and the
  exam screen back to difficulty selection without submitting. The results
  screen can go back to difficulty selection too (`StepsFollowArrows`).
- **Congratulations.** They come back on every later submission once all
  levels are complete, because every submission replaces `completionStatus`
  (`CongratsRefires`).
- **Errors.** `startOver` leaves `error` as it is, and a successful reply
  does not clear it either. The file input stays enabled while a request is
  pending, and choosing a file clears the error. So a file chosen while a
  request is pending, followed by that request failing, leaves a failure
  message that a later successful upload keeps. After an exam, "Upload New
  Document" shows it again (`StaleErrorSurvives`).
- **Accuracy.** The accuracy percentage is not guarded against a zero total,
  where it shows `NaN`; see Left out.

## Model

| member | source | states |
|---|---|---|
| Common.Decimal | frontend/src/App.jsx:126 | `${n}` is a non-empty string of decimal digits, one digit exactly when n < 10 |
| Common.ParseDecimalOfDecimal | frontend/src/App.jsx:126 | reading a rendered number back gives the number: the rendering loses nothing |
| Common.PrefixedInjective | frontend/src/App.jsx:129 | `prefix${a}` equals `prefix${b}` only when a equals b, so slot ids and card ids are pairwise different |
| Matching.SlotKey | frontend/src/App.jsx:126 | a slot id starts with `prompt-` and is never `answerPool` |
| Matching.FindInPool | frontend/src/App.jsx:138 | the pool search returns the first pool card with that id, or reports that none has it |
| Matching.FindInSlots | frontend/src/App.jsx:138 | the slot search returns the occupant of the first slot, in property order, holding a card with that id, or reports that no slot holds one |
| Matching.Dragged | frontend/src/App.jsx:138-139 | the dragged card is a card on the board with that id; it is missing exactly when no card on the board has that id |
| Matching.Occupant | frontend/src/App.jsx:159 | reading `droppedAnswers[key]` gives the value of the property named `key` (the first such property), and nothing for an id that is not a property |
| Matching.ClearId | frontend/src/App.jsx:145-152 | the sweep keeps every property and leaves no slot holding the dragged id |
| Matching.Put | frontend/src/App.jsx:177 | writing a slot changes exactly that slot: it adds the key last when new and keeps the key order otherwise |
| Matching.Without | frontend/src/App.jsx:162-163 | the filtered pool holds exactly the pool cards with a different id, and is the pool itself when no card has the id |
| MatchingLaws.WithoutAppend | frontend/src/App.jsx:163 | filtering keeps the pool order: it distributes over concatenation |
| MatchingLaws.WithoutSingle | frontend/src/App.jsx:163 | a single card survives the filter exactly when its id differs |
| Matching.Cards | frontend/src/App.jsx:129 | one card per answer, in order, card i having id `answer-${i}` and content answers[i] |
| Matching.FreshSlots | frontend/src/App.jsx:124-128 | one empty slot `prompt-${i}` per prompt, in prompt order |
| Matching.NewBoard | frontend/src/App.jsx:124-129 | the board `startExam` builds; its properties are stated by `MatchingLaws.NewBoardFacts` |
| Matching.Drop | frontend/src/App.jsx:134-181 | slots are never removed and at most the target is added; a card dropped on a slot is then its occupant, one dropped on the pool is then in the pool; no target changes nothing. Branch effects: `DropNoOp`, `DropOnSlot`, `DropOnPool`, `DropConserves`, `SelfDropDuplicates` |
| MatchingLaws.WithoutBag | frontend/src/App.jsx:161-163 | filtering removes every copy of the cards with that id and keeps the count of every other card |
| MatchingLaws.ClearBag | frontend/src/App.jsx:145-152 | the sweep removes every slotted card with that id and keeps the count of every other card |
| MatchingLaws.PutBag | frontend/src/App.jsx:177 | writing a slot swaps its old occupant for the new one in the multiset of slotted cards |
| MatchingLaws.OccupantClear | frontend/src/App.jsx:171-176 | after the sweep, a slot is empty if it held the dragged id and unchanged otherwise |
| MatchingLaws.ClearAbsent | frontend/src/App.jsx:171-176 | the sweep changes nothing when no slot holds the id |
| MatchingLaws.ClearIdIdempotent | frontend/src/App.jsx:145-152 | sweeping twice is sweeping once |
| MatchingLaws.SlotDropCount | frontend/src/App.jsx:157-179 | per card, a drop on a slot removes the dragged id's cards, adds the dragged card once, and adds the old occupant once |
| MatchingLaws.PoolDropCount | frontend/src/App.jsx:141-154 | per card, a drop on the pool keeps the pool copies of the dragged id, or adds the dragged card once when the pool has none, and removes its slot copies |
| MatchingLaws.DropNoOp | frontend/src/App.jsx:136-157 | no target, an id no card has, or a target that is neither the pool nor a slot leaves the board unchanged |
| MatchingLaws.DropOnSlot | frontend/src/App.jsx:157-179 | on any board where an id names one card, a card dropped on another slot ends up there and not in the pool; other slots holding it are emptied, the rest unchanged; the pool is the filtered pool followed by the old occupant |
| MatchingLaws.DisplacementScenario | frontend/src/App.jsx:157-179 | answers X, Y, Z: Y onto slot 1 and then X onto slot 1 leaves X in slot 1, slots 0 and 2 empty, and the pool [Z, Y] |
| MatchingLaws.DropConserves | frontend/src/App.jsx:138-179 | a drop that is not a self-drop keeps the multiset of cards and keeps every card in exactly one place |
| MatchingLaws.SelfDropDuplicates | frontend/src/App.jsx:157-179 | dropping a slotted card on its own slot appends it to the pool and leaves it in the slot: the card is in two places |
| MatchingLaws.DropKeepsCards | frontend/src/App.jsx:134-181 | any drop, self-drops included, keeps the set of cards on the board and one card per id |
| MatchingLaws.DropKeepsKeys | frontend/src/App.jsx:170-178 | no drop ever makes a slot id occur twice |
| MatchingLaws.ReplayConserves | frontend/src/App.jsx:134-181 | any sequence of drops without self-drops keeps the multiset of cards and their uniqueness |
| MatchingLaws.DropOnPool | frontend/src/App.jsx:141-154 | a card dropped on the pool is appended only if absent from it; every slot holding it is emptied; keys are kept |
| MatchingLaws.DropOnPoolIdempotent | frontend/src/App.jsx:141-154 | dropping the same id on the pool twice has the effect of doing it once |
| MatchingLaws.NewBoardFacts | frontend/src/App.jsx:119-132 | the fresh board holds each card once, all in the pool, with one empty slot per prompt under distinct keys `prompt-${i}` |
| MatchingLaws.FreshKeysDistinct | frontend/src/App.jsx:124-127 | the fresh slot keys are pairwise different |
| MatchingLaws.CardsUnique | frontend/src/App.jsx:129 | the fresh cards are pairwise different and no two share an id |
| MatchingLaws.SessionCardsExactlyOnce | frontend/src/App.jsx:119-181 | after any drags without self-drops, every answer's card is on the board exactly once |
| Exam.SetMcqAnswer | frontend/src/App.jsx:116-118 | choosing stores the value for that index, with no check against the options, and keeps every other index as it was |
| Exam.LatestChoiceWins | frontend/src/App.jsx:116-118 | choosing twice for one question keeps only the later choice |
| Exam.ChoicesCommute | frontend/src/App.jsx:116-118 | choices for different questions do not interfere |
| Grading.McqLine | frontend/src/App.jsx:192-195 | the review line of one question; its meaning is stated by `Grading.McqVerdict` |
| Grading.MatchLine | frontend/src/App.jsx:199-205 | the review line of one prompt; its meaning is stated by `Grading.MatchVerdict` |
| Grading.ReviewOf | frontend/src/App.jsx:189-206 | the review record; its shape and fields are stated by `Grading.ReviewFollowsQuestions` |
| Grading.Score | frontend/src/App.jsx:185-204 | the score never exceeds the number of questions and prompts; `Grading.ScoreCountsCorrectEntries` states it is the number of correct entries |
| Grading.GradeMcqs | frontend/src/App.jsx:191-196 | the first pass builds the multiple-choice review lines and counts the correct ones |
| Grading.GradeMatching | frontend/src/App.jsx:198-206 | the second pass builds the prompt review lines from slots `prompt-${i}` and counts the correct ones |
| Grading.Grade | frontend/src/App.jsx:183-209 | the review record and score the handler computes; the score never exceeds the number of questions and prompts |
| Grading.ReviewFollowsQuestions | frontend/src/App.jsx:191-206 | one review line per question and per prompt, in their order; the user's answer is the recorded choice or the slot's card text (none when unanswered or empty); the correct answer is the question's answer or the solution entry for the prompt (none when it has no entry) |
| Grading.McqVerdict | frontend/src/App.jsx:192-195 | a question is correct exactly when its index holds the answer text; an unanswered one shows no answer and is wrong |
| Grading.MatchVerdict | frontend/src/App.jsx:199-205 | a prompt is correct exactly when its slot holds a card whose text is the solution's; an empty slot shows no answer and is wrong |
| Grading.CountTrue | frontend/src/App.jsx:194-203 | the `correctAnswers` count of one pass never exceeds the number of lines; `Grading.CountTrueCounts` states it is the number of true marks |
| Grading.CountTrueCounts | frontend/src/App.jsx:194-203 | the count equals the number of positions whose `isCorrect` mark is true |
| Grading.CountTrueFull | frontend/src/App.jsx:194-203 | the count equals the number of lines exactly when every mark is true |
| Grading.CountTrueZero | frontend/src/App.jsx:194-203 | the count is zero exactly when no mark is true |
| Grading.ScoreCountsCorrectEntries | frontend/src/App.jsx:194-204 | the score is the number of review entries marked correct |
| Grading.FullMarks | frontend/src/App.jsx:185-209 | the score equals the question count exactly when every entry is correct |
| Grading.NoMarks | frontend/src/App.jsx:185-209 | nothing answered and nothing placed scores zero |
| Grading.ArithmeticExample | frontend/src/App.jsx:191-196 | "2+2?" answered 4 is correct and scores one; left unanswered it is wrong and shows no answer |
| Grading.HalfMarksExample | frontend/src/App.jsx:183-209 | one correct question and one wrongly filled prompt score 1 out of 2 |
| Flow.StartOver | frontend/src/App.jsx:215-230 | starting over yields the first-render state apart from the error message and the pending request: upload screen, no file, summary, questions, level, answers or review, no level complete, an empty board, score zero |
| Flow.CompletionEffect | frontend/src/App.jsx:84-90 | the confetti is on afterwards exactly when it was on or all levels are complete; nothing else changes |
| Flow.Init | frontend/src/App.jsx:61-82 | the first-render state, with no request pending; `Flow.InitConsistent` states it satisfies the invariant |
| Flow.HandleUpload | frontend/src/App.jsx:97-100 | the click on the upload button; its effect is stated by `Flow.NoFileUpload` and `Flow.UploadOutcome` |
| Flow.UploadReply | frontend/src/App.jsx:106-114 | in any state, including one where a file was chosen while the request was pending, a reply sets the summary and the questions, opens the summary screen and keeps the error; a failure sets the failure message and keeps the screen and the questions; either way the request ends and nothing else changes |
| Flow.StartExam | frontend/src/App.jsx:119-132 | the level-start handler; its effect is stated by `Flow.StartExamEffect` |
| Flow.HandleSubmitExam | frontend/src/App.jsx:183-213 | the submit handler with the completion effect; its effect is stated by `Flow.SubmitEffect` |
| Flow.Handle | frontend/src/App.jsx:92-230 | the handler each control calls; `Flow.StepConsistent` states no offered one throws |
| Flow.StartOverResets | frontend/src/App.jsx:215-230 | starting over yields the first-render state, whatever the prior state, apart from the error message and the pending request |
| Flow.StaleErrorSurvives | frontend/src/App.jsx:92-114 | an on-screen run from the first render (upload, choose another file while pending, failure, upload again with success, exam, submit, "Upload New Document") ends on the upload screen showing the first request's failure message |
| Flow.StaleUploadsKeepError | frontend/src/App.jsx:92-114 | the uploads of that run are on screen and end on the summary screen still carrying the failure message |
| Flow.ExamKeepsError | frontend/src/App.jsx:183-230 | from the summary screen, choosing a level, submitting and starting over, all on screen, ends on the upload screen with the error the summary screen carried |
| Flow.NoFileUpload | frontend/src/App.jsx:98 | uploading without a file only sets "Please select a file first!" |
| Flow.FileChoiceClearsError | frontend/src/App.jsx:92-95 | choosing a file records it and clears the error message, and changes nothing else |
| Flow.UploadOutcome | frontend/src/App.jsx:97-115 | a click with a file starts over with the request pending; when the reply comes next it opens the summary with its questions and keeps the error, a failure stays on upload with the failure message and no questions; a reply never touches the file |
| Flow.StartExamEffect | frontend/src/App.jsx:119-132 | starting a level opens the exam on a fresh board: the pool in answer order, one empty slot per prompt, and no answers; completion and review are untouched; without questions it throws |
| Flow.StartExamForgets | frontend/src/App.jsx:119-132 | re-entering a level forgets the previous attempt's board and answers |
| Flow.ChosenOptionsAreOffered | frontend/src/App.jsx:304-313 | a radio button stores one of its question's options, so every recorded answer is an option |
| Flow.PoolBranchUnreachable | frontend/src/App.jsx:337 | an on-screen drag ends over nothing or over a slot, never over `answerPool` |
| Flow.SubmitEffect | frontend/src/App.jsx:183-213 | submitting records the review and score, marks this level complete and no other, opens the results, and turns the confetti on when all levels are complete; nothing else changes; without a level or questions it throws |
| Flow.CongratsRefires | frontend/src/App.jsx:211 | with all levels complete and the confetti off, another submission turns it back on |
| Flow.CompletionOnlyGrows | frontend/src/App.jsx:211 | a completed level stays completed until the state is started over |
| Flow.CompletionNeedsSubmission | frontend/src/App.jsx:211 | a level becomes complete only by submitting it |
| Flow.StepsFollowArrows | frontend/src/App.jsx:264-380 | every on-screen step goes where its control leads: "Start Exam!", "Back to Difficulty Selection" and "Choose Another Level" to difficulty selection, "Back to Summary" to the summary, a level to the exam, submitting to the results, "Upload New Document" to upload, a reply to the summary; "Review Answers" opens the review dialog and closing it closes it; every step is an arrow of the screen graph |
| Flow.ExamAndResultsEntries | frontend/src/App.jsx:131-212 | the exam screen is entered only by choosing a level, the results screen only by submitting |
| Flow.InitConsistent | frontend/src/App.jsx:61-82 | the first-render state satisfies the invariant |
| Flow.StepConsistent | frontend/src/App.jsx:92-230 | no handler a rendered control calls throws, and each keeps the invariant |
| Flow.OnScreenRunsNeverThrow | frontend/src/App.jsx:92-230 | any sequence of on-screen interactions from a consistent state runs without a throw and stays consistent |
| Flow.SessionsNeverThrow | frontend/src/App.jsx:61-230 | from the first render, no sequence of on-screen interactions makes a handler throw |

## Left out

- The upload relay (`backend/server.js`) and the question generator
  (`ai-service/app.py`) are not part of this model. Their reply is an event
  parameter: `Some` is a reply, `None` a failed request.
- The loading spinner is left out; `isLoading` is modelled only as the
  pending request that disables the upload button. The reply settles the
  pending request whatever happened in between, as the code does.
- `accuracy` (`toFixed(2)` of a floating-point percentage) is left out,
  because the model has no floating point. The score and the total are
  modelled. With a zero total the code shows `NaN`.
- The 8000 ms confetti timer is the event `CongratsTimer`, which can happen at
  any time. Several pending timers are not told apart.
- Rendering, styling, dnd-kit collision detection and the confetti animation
  are presentation. Only which controls a screen offers is modelled
  (`Offered`).
- A question set always has all three levels, a `mcqs` list, and a matching
  question with string answers and string solution entries. The model does not
  cover a reply missing these. In the code, a missing `answer` or a `null`
  solution entry would count an empty answer as correct (`undefined ===
  undefined`, `null === null`).
- `solution` is a map from prompt text to answer text. Keys inherited from
  `Object.prototype` (a prompt named `constructor`, say) are not modelled.
- `startExam` throws when there are no questions. In the model the throw
  ends the run (`TypeError` carries no state), so the level React has
  already queued is not recorded. That path is never offered on screen
  anyway.
- The file is its name only. The form-data request body is left out.

=== FILE: common.dfy ===
/** Vocabulary shared by the exam model: optional values, distinctness of a
    sequence, a regrouping step for concatenations, and the decimal rendering that template literals such as
    `prompt-${i}` and `answer-${i}` use to build identifiers. */
module Common {

  /** A JavaScript value that may be `null` / `undefined` (None) or present. */
  datatype Option<T> = None | Some(value: T)

  /** No element occurs twice. */
  predicate Distinct<T(==)>(s: seq<T>) {
    forall i, j :: 0 <= i < j < |s| ==> s[i] != s[j]
  }

  /** Appending an element the list lacks keeps it free of repetitions. */
  lemma AppendKeepsDistinct<T>(s: seq<T>, x: T)
    requires Distinct(s) && x !in s
    ensures Distinct(s + [x])
  {
    forall i, j | 0 <= i < j < |s + [x]|
      ensures (s + [x])[i] != (s + [x])[j]
    {
      if j == |s| {
        assert s[i] in s;
      }
    }
  }

  /** A list without repetitions counts every element at most once. */
  lemma {:induction false} DistinctCountsOnce<T>(s: seq<T>, x: T)
    requires Distinct(s)
    ensures multiset(s)[x] <= 1
  {
    if |s| > 0 {
      assert s == [s[0]] + s[1..];
      DistinctCountsOnce(s[1..], x);
      if s[0] == x {
        assert x !in s[1..];
      }
    }
  }

  /** Regrouping a three-part concatenation. */
  lemma SplitJoin<T>(whole: seq<T>, left: seq<T>, h: seq<T>, mid: seq<T>, rest: seq<T>, right: seq<T>)
    requires whole == h + mid && left == h + rest && mid == rest + right
    ensures whole == left + right
  {
    assert h + (rest + right) == (h + rest) + right;
  }

  /** The character of one decimal digit. */
  function Digit(d: nat): (c: char)
    requires d < 10
    ensures '0' <= c <= '9'
  {
    (('0' as int) + d) as char
  }

  /** How `${n}` renders a non-negative integer: decimal digits, no sign,
      no leading zeros. */
  function Decimal(n: nat): (r: string)
    ensures 1 <= |r|
    ensures n < 10 <==> |r| == 1
    ensures forall k :: 0 <= k < |r| ==> '0' <= r[k] <= '9'
    decreases n
  {
    if n < 10 then [Digit(n)] else Decimal(n / 10) + [Digit(n % 10)]
  }

  /** The value of a digit character (0 for anything else). */
  function DigitValue(c: char): (v: nat)
    ensures v < 10
  {
    if '0' <= c <= '9' then (c as int) - ('0' as int) else 0
  }

  /** Reads a string of decimal digits back as a number. */
  function ParseDecimal(s: string): nat
    decreases |s|
  {
    if |s| == 0 then 0 else ParseDecimal(s[..|s| - 1]) * 10 + DigitValue(s[|s| - 1])
  }

  /** Reading a rendered number gives the number back. */
  lemma {:induction false} ParseDecimalOfDecimal(n: nat)
    ensures ParseDecimal(Decimal(n)) == n
    decreases n
  {
    var s := Decimal(n);
    if n < 10 {
      assert s[..0] == [];
    } else {
      ParseDecimalOfDecimal(n / 10);
      assert s[..|s| - 1] == Decimal(n / 10);
      assert s[|s| - 1] == Digit(n % 10);
    }
  }

  /** Two different numbers never render the same way. */
  lemma DecimalInjective(a: nat, b: nat)
    requires Decimal(a) == Decimal(b)
    ensures a == b
  {
    ParseDecimalOfDecimal(a);
    ParseDecimalOfDecimal(b);
  }

  /** `prefix${a}` and `prefix${b}` coincide only when a and b do. */
  lemma PrefixedInjective(prefix: string, a: nat, b: nat)
    requires prefix + Decimal(a) == prefix + Decimal(b)
    ensures a == b
  {
    assert (prefix + Decimal(a))[|prefix|..] == Decimal(a);
    assert (prefix + Decimal(b))[|prefix|..] == Decimal(b);
    DecimalInjective(a, b);
  }
}

=== FILE: exam.dfy ===
/** The question material an upload yields, one set per difficulty level,
    and the multiple-choice answer state of a running exam
    (frontend/src/App.jsx, startExam and handleMCQAnswerChange). */
module Exam {

  /** The three difficulty levels the difficulty screen offers. */
  datatype Level = Easy | Medium | Hard

  /** One multiple-choice question `{ question, options, answer }`. */
  datatype Mcq = Mcq(question: string, options: seq<string>, answer: string)

  /** The matching question: prompts in display order, answer texts in pool
      order, and the correct answer text per prompt. */
  datatype MatchingQuestion = MatchingQuestion(prompts: seq<string>, answers: seq<string>, solution: map<string, string>)

  /** The questions of one level. */
  datatype QuestionSet = QuestionSet(mcqs: seq<Mcq>, matching: MatchingQuestion)

  /** `allQuestions`: one question set per level. */
  datatype QuestionBank = QuestionBank(easy: QuestionSet, medium: QuestionSet, hard: QuestionSet) {
    /** `allQuestions[difficulty]`. */
    function Get(l: Level): QuestionSet {
      match l
      case Easy => easy
      case Medium => medium
      case Hard => hard
    }
  }

  /** `userMCQAnswers`: question index to the option text chosen; an absent
      index is an unanswered question. */
  type McqAnswers = map<nat, string>

  /** `handleMCQAnswerChange(index, value)`: records `value` for question
      `index`, replacing an earlier choice; `value` is not checked against
      the options; every other index keeps its entry or its absence. */
  function SetMcqAnswer(answers: McqAnswers, index: nat, value: string): (r: McqAnswers)
    ensures index in r && r[index] == value
    ensures forall j :: j != index ==> (j in r <==> j in answers)
    ensures forall j :: j != index && j in answers ==> r[j] == answers[j]
  {
    answers[index := value]
  }

  /** Choosing twice for one question keeps only the later choice. */
  lemma LatestChoiceWins(answers: McqAnswers, index: nat, first: string, second: string)
    ensures SetMcqAnswer(SetMcqAnswer(answers, index, first), index, second)
         == SetMcqAnswer(answers, index, second)
  {
  }

  /** Choices for different questions do not interfere. */
  lemma ChoicesCommute(answers: McqAnswers, i: nat, a: string, j: nat, b: string)
    requires i != j
    ensures SetMcqAnswer(SetMcqAnswer(answers, i, a), j, b)
         == SetMcqAnswer(SetMcqAnswer(answers, j, b), i, a)
  {
  }
}

=== FILE: flow.dfy ===
/** The screen flow of the exam client (frontend/src/App.jsx): the component
    state, the handlers the rendered controls call, the completion effect,
    and the invariants that keep every on-screen step from throwing. */
module Flow {
  import opened Common
  import opened Matching
  import opened MatchingLaws
  import opened Exam
  import opened Grading

  /** `currentView`. */
  datatype View = UploadView | SummaryView | DifficultyView | ExamView | ResultsView

  /** `completionStatus`: which levels have been submitted at least once. */
  datatype Completion = Completion(easy: bool, medium: bool, hard: bool) {
    /** `completionStatus[level]`. */
    function Get(l: Level): bool {
      match l
      case Easy => easy
      case Medium => medium
      case Hard => hard
    }

    /** `{ ...prev, [level]: true }`. */
    function Mark(l: Level): (c: Completion)
      ensures c.Get(l)
      ensures forall m :: m != l ==> c.Get(m) == Get(m)
    {
      match l
      case Easy => this.(easy := true)
      case Medium => this.(medium := true)
      case Hard => this.(hard := true)
    }

    /** `Object.values(completionStatus).every(status => status === true)`. */
    predicate All() {
      easy && medium && hard
    }
  }

  /** No level completed. */
  const NoneComplete := Completion(false, false, false)

  /** A successful reply of the upload endpoint: `{ summary, questions }`. */
  datatype UploadResponse = UploadResponse(summary: string, questions: QuestionBank)

  /** The component state, one field per `useState` (accuracy is not
      modelled); `loading` is `isLoading`, true while an upload request is
      pending; `board` holds `answerPool` and `droppedAnswers`. */
  datatype State = State(
    file: Option<string>,
    summary: string,
    questions: Option<QuestionBank>,
    error: string,
    loading: bool,
    view: View,
    difficulty: Option<Level>,
    completion: Completion,
    showCongrats: bool,
    score: nat,
    showReview: bool,
    finalAnswers: Option<Review>,
    mcqAnswers: McqAnswers,
    board: Board)

  /** What the user, the network or the confetti timer does. An upload is
      two events: the click sends the request, and the reply settles it
      later (None is a failed request); other events can come in between. */
  datatype Event =
    | FileChosen(chosen: Option<string>)
    | UploadClicked
    | UploadReplied(response: Option<UploadResponse>)
    | ToDifficulty
    | ToSummary
    | LevelClicked(level: Level)
    | OptionChosen(index: nat, option: string)
    | DragEnded(active: string, over: Option<string>)
    | SubmitClicked
    | ReviewClicked
    | ReviewClosed
    | UploadNewClicked
    | CongratsTimer

  /** A handler either returns the next state or throws a TypeError
      (property access on `null` / `undefined`). */
  datatype Reaction = Ok(state: State) | TypeError

  const NoFileMessage: string := "Please select a file first!"
  const UploadFailedMessage: string := "Failed to process the document. Please try a different file."

  /** The state on first render. */
  function Init(): State {
    State(None, "", None, "", false, UploadView, None, NoneComplete, false, 0, false, None, map[], Board([], []))
  }

  /** `startOver`: every field back to its initial value except `error` and
      `isLoading`, which it does not touch. */
  function StartOver(s: State): (t: State)
    ensures t == Init().(error := s.error, loading := s.loading)
    ensures t.view == UploadView && t.completion == NoneComplete && t.board == Board([], [])
  {
    s.(file := None, summary := "", questions := None, view := UploadView, difficulty := None,
       completion := NoneComplete, showCongrats := false, score := 0, showReview := false,
       finalAnswers := None, mcqAnswers := map[], board := Board([], []))
  }

  /** `handleUpload` up to the request: no file sets the error and stops;
      otherwise the request is pending and the state is started over. */
  function HandleUpload(s: State): State {
    if s.file.None? then s.(error := NoFileMessage)
    else StartOver(s.(loading := true))
  }

  /** The rest of `handleUpload`, when the request settles: a reply fills the
      summary and the questions and opens the summary screen, a failure sets
      the failure message; either way the request is no longer pending.
      Neither touches the file, and a reply does not clear the error. */
  function UploadReply(s: State, response: Option<UploadResponse>): (t: State)
    ensures !t.loading
    ensures response.Some? ==>
              && t.summary == response.value.summary && t.questions == Some(response.value.questions)
              && t.view == SummaryView && t.error == s.error
    ensures response.None? ==> t.error == UploadFailedMessage && t.view == s.view && t.questions == s.questions
    ensures t.(summary := s.summary, questions := s.questions, view := s.view, error := s.error, loading := s.loading) == s
  {
    match response
    case Some(r) => s.(summary := r.summary, questions := Some(r.questions), view := SummaryView, loading := false)
    case None => s.(error := UploadFailedMessage, loading := false)
  }

  /** `startExam(level)`: a fresh board for the level's matching question, no
      multiple-choice answers, and the exam screen. */
  function StartExam(s: State, l: Level): Reaction {
    if s.questions.None? then TypeError
    else
      var q := s.questions.value.Get(l).matching;
      Ok(s.(difficulty := Some(l), mcqAnswers := map[], board := NewBoard(|q.prompts|, q.answers), view := ExamView))
  }

  /** The completion effect: when every level is complete the confetti is
      switched on. React runs it whenever `completionStatus` is replaced,
      that is after every submission and after `startOver` (where no level
      is complete, so it does nothing). */
  function CompletionEffect(s: State): (t: State)
    ensures t.showCongrats <==> s.showCongrats || s.completion.All()
    ensures t.(showCongrats := s.showCongrats) == s
  {
    if s.completion.All() then s.(showCongrats := true) else s
  }

  /** `handleSubmitExam` followed by the completion effect. */
  function HandleSubmitExam(s: State): Reaction {
    if s.questions.None? || s.difficulty.None? then TypeError
    else
      var l := s.difficulty.value;
      var review := ReviewOf(s.questions.value.Get(l), s.mcqAnswers, s.board.slots);
      Ok(CompletionEffect(s.(finalAnswers := Some(review), score := Score(review),
                             completion := s.completion.Mark(l), view := ResultsView)))
  }

  /** The handler each event runs. */
  function Handle(s: State, e: Event): Reaction {
    match e
    case FileChosen(f) => Ok(s.(file := f, error := ""))
    case UploadClicked => Ok(HandleUpload(s))
    case UploadReplied(r) => Ok(UploadReply(s, r))
    case ToDifficulty => Ok(s.(view := DifficultyView))
    case ToSummary => Ok(s.(view := SummaryView))
    case LevelClicked(l) => StartExam(s, l)
    case OptionChosen(i, v) => Ok(s.(mcqAnswers := SetMcqAnswer(s.mcqAnswers, i, v)))
    case DragEnded(a, o) => Ok(s.(board := Drop(s.board, a, o)))
    case SubmitClicked => HandleSubmitExam(s)
    case ReviewClicked => Ok(s.(showReview := true))
    case ReviewClosed => Ok(s.(showReview := false))
    case UploadNewClicked => Ok(StartOver(s))
    case CongratsTimer => Ok(s.(showCongrats := false))
  }

  /** The question set of the running exam, if there is one. */
  function Current(s: State): Option<QuestionSet> {
    if s.questions.Some? && s.difficulty.Some? then Some(s.questions.value.Get(s.difficulty.value)) else None
  }

  /** The controls the rendered screen offers in state `s`. The file input
      stays enabled while a request is pending, the upload button is
      disabled then and without a file; a reply only settles a pending
      request, and nothing but the upload screen's controls and the timer
      is offered until it does; the radio buttons carry the
      question's options; the only droppables are the slots `prompt-${i}`
      of the prompts shown (the pool area is not a droppable). */
  ghost predicate Offered(s: State, e: Event) {
    match e
    case FileChosen(_) => s.view == UploadView
    case UploadClicked => s.view == UploadView && s.file.Some? && !s.loading
    case UploadReplied(_) => s.loading && s.view == UploadView
    case ToDifficulty => s.view == SummaryView || s.view == ExamView || s.view == ResultsView
    case ToSummary => s.view == DifficultyView
    case LevelClicked(_) => s.view == DifficultyView
    case OptionChosen(i, v) =>
      && s.view == ExamView && Current(s).Some?
      && i < |Current(s).value.mcqs| && v in Current(s).value.mcqs[i].options
    case DragEnded(_, o) =>
      && s.view == ExamView && Current(s).Some?
      && (o.None? || exists i: nat :: i < |Current(s).value.matching.prompts| && o.value == SlotKey(i))
    case SubmitClicked => s.view == ExamView
    case ReviewClicked => s.view == ResultsView
    case ReviewClosed => s.showReview
    case UploadNewClicked => s.view == ResultsView
    case CongratsTimer => true
  }

  // ---------------------------------------------------------------------
  // Invariants
  // ---------------------------------------------------------------------

  /** What rendering the current screen reads: the summary, difficulty and
      exam screens need the questions, the exam and results screens the
      level, the results screen and the review dialog the review record. */
  ghost predicate ScreensHaveData(s: State) {
    && (s.view != UploadView ==> s.questions.Some?)
    && (s.view == ExamView || s.view == ResultsView ==> s.difficulty.Some?)
    && (s.view == ResultsView ==> s.finalAnswers.Some?)
    && (s.showReview ==> s.finalAnswers.Some?)
  }

  /** While a request is pending the upload screen is shown and no level is
      chosen, so the questions of the reply start no session. */
  ghost predicate PendingOnUpload(s: State) {
    s.loading ==> s.view == UploadView && s.difficulty.None?
  }

  /** The board of a running exam holds exactly the level's cards, an id
      names one card, and no slot id occurs twice. */
  ghost predicate SessionBoard(b: Board, q: MatchingQuestion) {
    && Coherent(b)
    && (forall x :: x in Placed(b) <==> x in Cards(q.answers))
    && KeysDistinct(b.slots)
  }

  /** Every recorded choice belongs to a question of the level and is one of
      its options. */
  ghost predicate AnswersOffered(answers: McqAnswers, mcqs: seq<Mcq>) {
    forall i :: i in answers ==> i < |mcqs| && answers[i] in mcqs[i].options
  }

  /** The invariant of every reachable state. */
  ghost predicate Consistent(s: State) {
    && ScreensHaveData(s)
    && PendingOnUpload(s)
    && (s.difficulty.Some? ==> s.questions.Some?)
    && (Current(s).Some? ==>
          SessionBoard(s.board, Current(s).value.matching) && AnswersOffered(s.mcqAnswers, Current(s).value.mcqs))
  }

  lemma InitConsistent()
    ensures Consistent(Init())
  {
  }

  /** `startExam` from the difficulty screen starts a consistent session. */
  lemma StartExamConsistent(s: State, l: Level)
    requires Consistent(s)
    requires s.view == DifficultyView
    ensures StartExam(s, l).Ok? && Consistent(StartExam(s, l).state)
  {
    var q := s.questions.value.Get(l).matching;
    NewBoardFacts(|q.prompts|, q.answers);
  }

  /** A drag keeps the session board's cards and key discipline. */
  lemma DragConsistent(s: State, a: string, o: Option<string>)
    requires Consistent(s)
    ensures Consistent(Handle(s, DragEnded(a, o)).state)
  {
    var t := s.(board := Drop(s.board, a, o));
    assert Handle(s, DragEnded(a, o)) == Ok(t);
    assert Current(t) == Current(s);
    if Current(s).Some? {
      assert SessionBoard(t.board, Current(t).value.matching) by {
        DropKeepsCards(s.board, a, o);
        DropKeepsKeys(s.board, a, o);
      }
    }
  }

  /** Clicking upload, with or without a file, keeps the invariant. */
  lemma UploadConsistent(s: State)
    requires Consistent(s)
    requires s.view == UploadView
    ensures Consistent(HandleUpload(s))
  {
  }

  /** The reply to a pending request, success or failure, keeps the
      invariant. */
  lemma ReplyConsistent(s: State, r: Option<UploadResponse>)
    requires Consistent(s)
    requires s.loading
    ensures Consistent(UploadReply(s, r))
  {
    assert Current(UploadReply(s, r)).None?;
  }

  /** An on-screen choice of an option keeps the invariant. */
  lemma OptionConsistent(s: State, i: nat, v: string)
    requires Consistent(s)
    requires Offered(s, OptionChosen(i, v))
    ensures Consistent(Handle(s, OptionChosen(i, v)).state)
  {
    var t := Handle(s, OptionChosen(i, v)).state;
    assert Current(t) == Current(s);
  }

  /** Submitting from the exam screen keeps the invariant. */
  lemma SubmitConsistent(s: State)
    requires Consistent(s)
    requires s.view == ExamView
    ensures HandleSubmitExam(s).Ok?
    ensures Consistent(HandleSubmitExam(s).state)
  {
    assert Current(HandleSubmitExam(s).state) == Current(s);
  }

  /** Moving between screens and toggling the dialog or the confetti keeps
      the invariant. */
  lemma NavigationConsistent(s: State, e: Event)
    requires Consistent(s)
    requires Offered(s, e)
    requires e.ToDifficulty? || e.ToSummary? || e.ReviewClicked? || e.ReviewClosed? || e.CongratsTimer?
    ensures Consistent(Handle(s, e).state)
  {
    assert Current(Handle(s, e).state) == Current(s);
  }

  /** An on-screen step never throws and keeps the invariant. */
  lemma StepConsistent(s: State, e: Event)
    requires Consistent(s)
    requires Offered(s, e)
    ensures Handle(s, e).Ok?
    ensures Consistent(Handle(s, e).state)
  {
    match e
    case FileChosen(_) =>
    case UploadClicked => UploadConsistent(s);
    case UploadReplied(r) => ReplyConsistent(s, r);
    case LevelClicked(l) => StartExamConsistent(s, l);
    case OptionChosen(i, v) => OptionConsistent(s, i, v);
    case DragEnded(a, o) => DragConsistent(s, a, o);
    case SubmitClicked => SubmitConsistent(s);
    case UploadNewClicked =>
    case _ => NavigationConsistent(s, e);
  }

  /** Events applied one after another; a throw ends the run. */
  function Run(s: State, es: seq<Event>): Reaction
    decreases |es|
  {
    if |es| == 0 then Ok(s)
    else
      match Handle(s, es[0])
      case TypeError => TypeError
      case Ok(t) => Run(t, es[1..])
  }

  /** Each event of the run is offered by the screen it reaches. */
  ghost predicate OnScreen(s: State, es: seq<Event>)
    decreases |es|
  {
    |es| == 0 || (Offered(s, es[0]) && (Handle(s, es[0]).Ok? ==> OnScreen(Handle(s, es[0]).state, es[1..])))
  }

  /** No sequence of on-screen interactions makes a handler throw, and the
      invariant holds all along. */
  lemma {:induction false} OnScreenRunsNeverThrow(s: State, es: seq<Event>)
    requires Consistent(s)
    requires OnScreen(s, es)
    ensures Run(s, es).Ok?
    ensures Consistent(Run(s, es).state)
    decreases |es|
  {
    if |es| > 0 {
      StepConsistent(s, es[0]);
      OnScreenRunsNeverThrow(Handle(s, es[0]).state, es[1..]);
    }
  }

  /** From the first render, every on-screen run succeeds. */
  lemma SessionsNeverThrow(es: seq<Event>)
    requires OnScreen(Init(), es)
    ensures Run(Init(), es).Ok?
    ensures Consistent(Run(Init(), es).state)
  {
    InitConsistent();
    OnScreenRunsNeverThrow(Init(), es);
  }

  // ---------------------------------------------------------------------
  // Screen transitions
  // ---------------------------------------------------------------------

  /** The arrows of the screen graph: upload to summary, summary to
      difficulty, difficulty back to summary or on to the exam, the exam
      back to difficulty or on to results, results to difficulty or back to
      upload; and staying put. */
  predicate Arrow(from: View, to: View) {
    || from == to
    || (from == UploadView && to == SummaryView)
    || (from == SummaryView && to == DifficultyView)
    || (from == DifficultyView && (to == SummaryView || to == ExamView))
    || (from == ExamView && (to == DifficultyView || to == ResultsView))
    || (from == ResultsView && (to == DifficultyView || to == UploadView))
  }

  /** Where each control leads: "Start Exam!", "Back to Difficulty
      Selection" and "Choose Another Level" to the difficulty screen, "Back to
      Summary" from it to the summary, a level to the exam, submitting to the
      results, "Upload New Document" back to upload, and a reply from upload
      to the summary (a failure stays on upload); every other event keeps
      the screen. */
  predicate Edge(from: View, e: Event, to: View) {
    match e
    case ToDifficulty => from in {SummaryView, ExamView, ResultsView} && to == DifficultyView
    case ToSummary => from == DifficultyView && to == SummaryView
    case LevelClicked(_) => from == DifficultyView && to == ExamView
    case SubmitClicked => from == ExamView && to == ResultsView
    case UploadNewClicked => from == ResultsView && to == UploadView
    case UploadReplied(r) => from == UploadView && to == (if r.Some? then SummaryView else UploadView)
    case _ => to == from
  }

  /** Every edge is an arrow of the screen graph. */
  lemma EdgesAreArrows(from: View, e: Event, to: View)
    requires Edge(from, e, to)
    ensures Arrow(from, to)
  {
  }

  /** Every on-screen step goes where its control leads, along an arrow of
      the screen graph; "Review Answers" opens the review dialog and closing
      it closes it. */
  lemma StepsFollowArrows(s: State, e: Event)
    requires Offered(s, e)
    requires Handle(s, e).Ok?
    ensures Edge(s.view, e, Handle(s, e).state.view)
    ensures Arrow(s.view, Handle(s, e).state.view)
    ensures e == ReviewClicked ==> Handle(s, e).state.showReview
    ensures e == ReviewClosed ==> !Handle(s, e).state.showReview
  {
    EdgesAreArrows(s.view, e, Handle(s, e).state.view);
  }

  /** The exam screen is entered only by choosing a level, and the results
      screen only by submitting. */
  lemma ExamAndResultsEntries(s: State, e: Event)
    requires Handle(s, e).Ok?
    ensures Handle(s, e).state.view == ExamView && s.view != ExamView ==> e.LevelClicked?
    ensures Handle(s, e).state.view == ResultsView && s.view != ResultsView ==> e == SubmitClicked
  {
  }

  // ---------------------------------------------------------------------
  // Handlers
  // ---------------------------------------------------------------------

  /** Uploading without a file only sets the error message. */
  lemma NoFileUpload(s: State)
    requires s.file.None?
    ensures Handle(s, UploadClicked) == Ok(s.(error := NoFileMessage))
  {
  }

  /** Choosing a file, or none, records it and clears the error message. */
  lemma FileChoiceClearsError(s: State, f: Option<string>)
    ensures Handle(s, FileChosen(f)) == Ok(s.(file := f, error := ""))
  {
  }

  /** Uploading a file starts over with the request pending; when the reply
      comes before any other event, it opens the summary with the reply's
      questions and keeps the error, and a failure stays on the upload screen
      with the failure message. Between the two, only the file changes
      hands: a reply or a failure keeps the file the user chose meanwhile. */
  lemma UploadOutcome(s: State, response: Option<UploadResponse>)
    requires s.file.Some?
    ensures Handle(s, UploadClicked) == Ok(Init().(error := s.error, loading := true))
    ensures var t := Run(s, [UploadClicked, UploadReplied(response)]);
            && t.Ok?
            && (response.Some? ==>
                  t.state == Init().(error := s.error, summary := response.value.summary,
                                     questions := Some(response.value.questions), view := SummaryView))
            && (response.None? ==> t.state == Init().(error := UploadFailedMessage))
    ensures forall p: State ::
              UploadReply(p, response).file == p.file && !UploadReply(p, response).loading
              && (response.Some? ==> UploadReply(p, response).error == p.error)
  {
    var es := [UploadClicked, UploadReplied(response)];
    RunStep(s, es, 0);
    RunStep(Init().(error := s.error, loading := true), es, 1);
    assert es[0..] == es && es[2..] == [];
  }

  /** Starting over yields the first-render state, apart from the error and
      the pending request. */
  lemma StartOverResets(s: State)
    ensures StartOver(s) == Init().(error := s.error, loading := s.loading)
    ensures Handle(s, UploadNewClicked) == Ok(Init().(error := s.error, loading := s.loading))
  {
  }

  /** Running from the k-th event is handling it and running the rest; the
      rest is on screen when the k-th event is offered and the rest from
      its result is. */
  lemma RunStep(s: State, es: seq<Event>, k: nat)
    requires k < |es|
    requires Handle(s, es[k]).Ok?
    ensures Run(s, es[k..]) == Run(Handle(s, es[k]).state, es[k + 1..])
    ensures Offered(s, es[k]) && OnScreen(Handle(s, es[k]).state, es[k + 1..]) ==> OnScreen(s, es[k..])
  {
    assert es[k..][0] == es[k];
    assert es[k..][1..] == es[k + 1..];
  }

  /** Running one sequence of events after another is running their
      concatenation, and the whole is on screen when both parts are. */
  lemma {:induction false} RunAppend(s: State, a: seq<Event>, b: seq<Event>)
    requires Run(s, a).Ok?
    ensures Run(s, a + b) == Run(Run(s, a).state, b)
    ensures OnScreen(s, a) && OnScreen(Run(s, a).state, b) ==> OnScreen(s, a + b)
    decreases |a|
  {
    if |a| == 0 {
      assert a + b == b;
    } else {
      assert (a + b)[0] == a[0];
      assert (a + b)[1..] == a[1..] + b;
      RunAppend(Handle(s, a[0]).state, a[1..], b);
    }
  }

  /** Choose a file and upload; choose another file while the request is
      pending; the request fails. Upload again, and this time the reply
      arrives. */
  function StaleUploads(bank: QuestionBank): seq<Event> {
    [FileChosen(Some("a.pdf")), UploadClicked, FileChosen(Some("b.pdf")), UploadReplied(None),
     UploadClicked, UploadReplied(Some(UploadResponse("summary", bank)))]
  }

  /** The summary screen the second reply opens, still carrying the failure
      message of the first request. */
  function StaleSummary(bank: QuestionBank): State {
    Init().(error := UploadFailedMessage, summary := "summary", questions := Some(bank), view := SummaryView)
  }

  /** A successful upload does not clear the failure message of an earlier
      request when a file was chosen while that request was pending. */
  lemma StaleUploadsKeepError(bank: QuestionBank)
    ensures OnScreen(Init(), StaleUploads(bank))
    ensures Run(Init(), StaleUploads(bank)) == Ok(StaleSummary(bank))
  {
    var es := StaleUploads(bank);
    var s0 := Init();
    var s1 := Init().(file := Some("a.pdf"));
    var s2 := Init().(loading := true);
    var s3 := Init().(file := Some("b.pdf"), loading := true);
    var s4 := Init().(file := Some("b.pdf"), error := UploadFailedMessage);
    var s5 := Init().(error := UploadFailedMessage, loading := true);
    var s6 := StaleSummary(bank);
    assert Offered(s0, es[0]) && Handle(s0, es[0]) == Ok(s1) by { }
    assert Offered(s1, es[1]) && Handle(s1, es[1]) == Ok(s2) by { }
    assert Offered(s2, es[2]) && Handle(s2, es[2]) == Ok(s3) by {
      assert es[2] == FileChosen(Some("b.pdf"));
      assert s2.(file := Some("b.pdf"), error := "") == s3;
    }
    assert Offered(s3, es[3]) && Handle(s3, es[3]) == Ok(s4) by { }
    assert Offered(s4, es[4]) && Handle(s4, es[4]) == Ok(s5) by { }
    assert Offered(s5, es[5]) && Handle(s5, es[5]) == Ok(s6) by { }
    assert Run(s6, es[6..]) == Ok(s6) && OnScreen(s6, es[6..]) by { assert es[6..] == []; }
    RunStep(s5, es, 5);
    RunStep(s4, es, 4);
    RunStep(s3, es, 3);
    RunStep(s2, es, 2);
    RunStep(s1, es, 1);
    RunStep(s0, es, 0);
    assert es[0..] == es;
  }

  /** A failure message outlives a later successful upload: after the
      uploads above, picking a level, submitting and clicking "Upload New
      Document", all on screen, ends on the upload screen showing the
      failure message of the first request, although the second succeeded. */
  lemma StaleErrorSurvives(bank: QuestionBank)
    ensures var es := StaleUploads(bank) + [ToDifficulty, LevelClicked(Easy), SubmitClicked, UploadNewClicked];
            && OnScreen(Init(), es)
            && Run(Init(), es).Ok?
            && Run(Init(), es).state.view == UploadView
            && Run(Init(), es).state.error == UploadFailedMessage
  {
    StaleUploadsKeepError(bank);
    ExamKeepsError(StaleSummary(bank), Easy);
    RunAppend(Init(), StaleUploads(bank), [ToDifficulty, LevelClicked(Easy), SubmitClicked, UploadNewClicked]);
  }

  /** Going from the summary screen to a level, submitting it and starting
      over, all on screen, ends on the upload screen with the error the
      summary screen carried: nothing on the way clears it. */
  lemma ExamKeepsError(s: State, l: Level)
    requires s.view == SummaryView && s.questions.Some?
    ensures var es := [ToDifficulty, LevelClicked(l), SubmitClicked, UploadNewClicked];
            && OnScreen(s, es)
            && Run(s, es) == Ok(Init().(error := s.error, loading := s.loading))
  {
    var es := [ToDifficulty, LevelClicked(l), SubmitClicked, UploadNewClicked];
    var s1 := s.(view := DifficultyView);
    var s2 := StartExam(s1, l).state;
    var s3 := HandleSubmitExam(s2).state;
    var s4 := Init().(error := s.error, loading := s.loading);
    assert Offered(s, es[0]) && Handle(s, es[0]) == Ok(s1);
    assert Offered(s1, es[1]) && Handle(s1, es[1]) == Ok(s2)
        && s2.view == ExamView && s2.questions.Some? && s2.difficulty.Some?
        && s2.error == s.error && s2.loading == s.loading by {
      var q := s.questions.value.Get(l).matching;
      assert s2 == s1.(difficulty := Some(l), mcqAnswers := map[], board := NewBoard(|q.prompts|, q.answers), view := ExamView);
    }
    assert Offered(s2, es[2]) && Handle(s2, es[2]) == Ok(s3)
        && s3.view == ResultsView && s3.error == s.error && s3.loading == s.loading by {
      SubmitEffect(s2);
    }
    assert Offered(s3, es[3]) && Handle(s3, es[3]) == Ok(s4) by {
      StartOverResets(s3);
    }
    assert Run(s4, es[4..]) == Ok(s4) && OnScreen(s4, es[4..]) by { assert es[4..] == []; }
    RunStep(s3, es, 3);
    RunStep(s2, es, 2);
    RunStep(s1, es, 1);
    RunStep(s, es, 0);
    assert es[0..] == es;
  }

  /** `startExam` throws without questions; otherwise it opens the exam on a
      fresh board holding each card of the level once in the pool, with one
      empty slot per prompt and no answers, and leaves the rest alone. */
  lemma StartExamEffect(s: State, l: Level)
    ensures s.questions.None? ==> StartExam(s, l).TypeError?
    ensures s.questions.Some? ==>
              var q := s.questions.value.Get(l).matching;
              var t := StartExam(s, l);
              && t.Ok?
              && t.state.view == ExamView && t.state.difficulty == Some(l)
              && t.state.mcqAnswers == map[]
              && |t.state.board.pool| == |q.answers|
              && (forall i :: 0 <= i < |q.answers| ==> t.state.board.pool[i] == Item(ItemId(i), q.answers[i]))
              && (forall i :: 0 <= i < |q.prompts| ==> Keys(t.state.board.slots)[i] == SlotKey(i))
              && Placed(t.state.board) == multiset(Cards(q.answers))
              && Unique(t.state.board)
              && |Keys(t.state.board.slots)| == |q.prompts|
              && (forall i :: 0 <= i < |q.prompts| ==> Occupant(t.state.board.slots, SlotKey(i)) == None)
              && t.state.(view := s.view, difficulty := s.difficulty, mcqAnswers := s.mcqAnswers, board := s.board) == s
  {
    if s.questions.Some? {
      var q := s.questions.value.Get(l).matching;
      NewBoardFacts(|q.prompts|, q.answers);
    }
  }

  /** Re-entering a level forgets the previous attempt: the exam part of the
      state depends only on the questions and the level. */
  lemma StartExamForgets(s1: State, s2: State, l: Level)
    requires s1.questions.Some? && s1.questions == s2.questions
    ensures var t1 := StartExam(s1, l).state;
            var t2 := StartExam(s2, l).state;
            t1.board == t2.board && t1.mcqAnswers == t2.mcqAnswers && t1.difficulty == t2.difficulty
  {
  }

  /** A radio button always stores one of the question's options. */
  lemma ChosenOptionsAreOffered(s: State, i: nat, v: string)
    requires Consistent(s)
    requires Offered(s, OptionChosen(i, v))
    ensures var t := Handle(s, OptionChosen(i, v)).state;
            && i in t.mcqAnswers && t.mcqAnswers[i] in Current(t).value.mcqs[i].options
            && AnswersOffered(t.mcqAnswers, Current(t).value.mcqs)
  {
  }

  /** The pool branch of the drag handler is dead code: no rendered
      droppable is `answerPool`, so an on-screen drag either ends over
      nothing or over a slot. */
  lemma PoolBranchUnreachable(s: State, a: string, o: Option<string>)
    requires Offered(s, DragEnded(a, o))
    ensures o != Some(PoolId)
    ensures o.None? || SlotPrefix <= o.value
  {
  }

  /** Submitting grades the level, records the review and the score, marks
      the level complete (and no other), and opens the results; the
      confetti is on afterwards exactly when it was on already or all three
      levels are now complete, even when they were complete before. Nothing
      else changes. */
  lemma SubmitEffect(s: State)
    ensures s.questions.None? || s.difficulty.None? ==> HandleSubmitExam(s).TypeError?
    ensures s.questions.Some? && s.difficulty.Some? ==>
              var l := s.difficulty.value;
              var qs := s.questions.value.Get(l);
              var t := HandleSubmitExam(s);
              && t.Ok?
              && t.state.view == ResultsView
              && t.state.finalAnswers == Some(ReviewOf(qs, s.mcqAnswers, s.board.slots))
              && t.state.score == Score(ReviewOf(qs, s.mcqAnswers, s.board.slots))
              && t.state.score <= |qs.mcqs| + |qs.matching.prompts|
              && t.state.completion.Get(l)
              && (forall m :: m != l ==> t.state.completion.Get(m) == s.completion.Get(m))
              && (t.state.showCongrats <==> s.showCongrats || t.state.completion.All())
              && t.state.board == s.board && t.state.mcqAnswers == s.mcqAnswers
              && t.state.questions == s.questions && t.state.difficulty == s.difficulty
              && t.state.(finalAnswers := s.finalAnswers, score := s.score, completion := s.completion,
                          view := s.view, showCongrats := s.showCongrats) == s
  {
  }

  /** After the confetti timer has switched it off, submitting any level
      again while all levels are complete switches the confetti back on. */
  lemma CongratsRefires(s: State)
    requires s.questions.Some? && s.difficulty.Some?
    requires s.completion.All() && !s.showCongrats
    ensures HandleSubmitExam(s).Ok? && HandleSubmitExam(s).state.showCongrats
  {
  }

  /** Completed levels stay completed until the state is started over. */
  lemma CompletionOnlyGrows(s: State, e: Event, l: Level)
    requires !e.UploadClicked? && e != UploadNewClicked
    requires Handle(s, e).Ok?
    requires s.completion.Get(l)
    ensures Handle(s, e).state.completion.Get(l)
  {
  }

  /** Only a submission of a level marks it complete. */
  lemma CompletionNeedsSubmission(s: State, e: Event, l: Level)
    requires Handle(s, e).Ok?
    requires !s.completion.Get(l) && Handle(s, e).state.completion.Get(l)
    ensures e == SubmitClicked && s.difficulty == Some(l)
  {
  }
}

=== FILE: grading.dfy ===
/** Grading a submitted exam: the review record and the score
    (frontend/src/App.jsx, handleSubmitExam). */
module Grading {
  import opened Common
  import opened Matching
  import opened Exam

  /** Review of one multiple-choice question. */
  datatype McqReview = McqReview(question: string, userAnswer: Option<string>, correctAnswer: string, isCorrect: bool)

  /** Review of one matching prompt; the correct answer is absent when the
      solution has no entry for the prompt. */
  datatype MatchReview = MatchReview(prompt: string, userAnswer: Option<string>, correctAnswer: Option<string>, isCorrect: bool)

  /** `finalAnswers`: one line per question, in question order. */
  datatype Review = Review(mcqs: seq<McqReview>, matching: seq<MatchReview>)

  /** `userMCQAnswers[index]`, None when the question was not answered. */
  function Chosen(answers: McqAnswers, i: nat): Option<string> {
    if i in answers then Some(answers[i]) else None
  }

  /** The review line of one multiple-choice question: correct when the
      chosen text is exactly the answer (`userAnswer === q.answer`). */
  function McqLine(q: Mcq, chosen: Option<string>): McqReview {
    McqReview(q.question, chosen, q.answer, chosen == Some(q.answer))
  }

  /** The review line of one prompt: the occupant's text against the
      solution's text; `null === undefined` is false, so a prompt without
      an occupant or without a solution entry is never correct. */
  function MatchLine(prompt: string, occupant: Option<Item>, solution: map<string, string>): MatchReview {
    var user := if occupant.Some? then Some(occupant.value.content) else None;
    var correct := if prompt in solution then Some(solution[prompt]) else None;
    MatchReview(prompt, user, correct, user.Some? && correct.Some? && user.value == correct.value)
  }

  /** The multiple-choice review lines, in question order. */
  function McqLines(mcqs: seq<Mcq>, answers: McqAnswers): (r: seq<McqReview>)
    ensures |r| == |mcqs|
  {
    seq(|mcqs|, i requires 0 <= i < |mcqs| => McqLine(mcqs[i], Chosen(answers, i)))
  }

  /** The matching review lines, in prompt order, prompt i read from slot
      `prompt-${i}`. */
  function MatchLines(q: MatchingQuestion, slots: seq<Slot>): (r: seq<MatchReview>)
    ensures |r| == |q.prompts|
  {
    seq(|q.prompts|, i requires 0 <= i < |q.prompts| => MatchLine(q.prompts[i], Occupant(slots, SlotKey(i)), q.solution))
  }

  /** The review record `handleSubmitExam` builds: the questions in order,
      then the prompts in order. */
  function ReviewOf(qs: QuestionSet, answers: McqAnswers, slots: seq<Slot>): Review {
    Review(McqLines(qs.mcqs, answers), MatchLines(qs.matching, slots))
  }

  /** The `isCorrect` column of the multiple-choice lines. */
  function McqMarks(lines: seq<McqReview>): (m: seq<bool>)
    ensures |m| == |lines| && forall i :: 0 <= i < |lines| ==> m[i] == lines[i].isCorrect
  {
    seq(|lines|, i requires 0 <= i < |lines| => lines[i].isCorrect)
  }

  /** The `isCorrect` column of the matching lines. */
  function MatchMarks(lines: seq<MatchReview>): (m: seq<bool>)
    ensures |m| == |lines| && forall i :: 0 <= i < |lines| ==> m[i] == lines[i].isCorrect
  {
    seq(|lines|, i requires 0 <= i < |lines| => lines[i].isCorrect)
  }

  /** The count `correctAnswers++` keeps over one pass: how many marks are
      true, counted in order. */
  function CountTrue(marks: seq<bool>): (n: nat)
    ensures n <= |marks|
  {
    if |marks| == 0 then 0
    else CountTrue(marks[..|marks| - 1]) + (if marks[|marks| - 1] then 1 else 0)
  }

  /** One more line adds its mark at the end of the column. */
  lemma McqMarksSnoc(lines: seq<McqReview>, line: McqReview)
    ensures McqMarks(lines + [line]) == McqMarks(lines) + [line.isCorrect]
  {
  }

  /** One more line adds its mark at the end of the column. */
  lemma MatchMarksSnoc(lines: seq<MatchReview>, line: MatchReview)
    ensures MatchMarks(lines + [line]) == MatchMarks(lines) + [line.isCorrect]
  {
  }

  /** One more mark adds one to the count exactly when it is true. */
  lemma CountTrueSnoc(marks: seq<bool>, b: bool)
    ensures CountTrue(marks + [b]) == CountTrue(marks) + (if b then 1 else 0)
  {
    assert (marks + [b])[..|marks|] == marks;
  }

  /** The score: how many review lines are correct. */
  function Score(r: Review): (n: nat)
    ensures n <= |r.mcqs| + |r.matching|
  {
    CountTrue(McqMarks(r.mcqs)) + CountTrue(MatchMarks(r.matching))
  }

  /** The first `forEach` pass: one review line per question, and the
      number of correct ones. */
  method GradeMcqs(mcqs: seq<Mcq>, answers: McqAnswers) returns (lines: seq<McqReview>, correct: nat)
    ensures lines == McqLines(mcqs, answers)
    ensures correct == CountTrue(McqMarks(lines))
  {
    ghost var spec := McqLines(mcqs, answers);
    correct := 0;
    lines := [];
    var i := 0;
    while i < |mcqs|
      invariant 0 <= i <= |mcqs|
      invariant lines == spec[..i]
      invariant correct == CountTrue(McqMarks(lines))
    {
      var line := McqLine(mcqs[i], Chosen(answers, i));
      if line.isCorrect {
        correct := correct + 1;
      }
      assert correct == CountTrue(McqMarks(lines + [line])) by {
        McqMarksSnoc(lines, line);
        CountTrueSnoc(McqMarks(lines), line.isCorrect);
      }
      assert lines + [line] == spec[..i + 1] by {
        assert line == spec[i];
      }
      lines := lines + [line];
      i := i + 1;
    }
    assert lines == spec;
  }

  /** The second `forEach` pass: one review line per prompt, and the number
      of correct ones. */
  method GradeMatching(q: MatchingQuestion, slots: seq<Slot>) returns (lines: seq<MatchReview>, correct: nat)
    ensures lines == MatchLines(q, slots)
    ensures correct == CountTrue(MatchMarks(lines))
  {
    ghost var spec := MatchLines(q, slots);
    correct := 0;
    lines := [];
    var i := 0;
    while i < |q.prompts|
      invariant 0 <= i <= |q.prompts|
      invariant lines == spec[..i]
      invariant correct == CountTrue(MatchMarks(lines))
    {
      var line := MatchLine(q.prompts[i], Occupant(slots, SlotKey(i)), q.solution);
      if line.isCorrect {
        correct := correct + 1;
      }
      assert correct == CountTrue(MatchMarks(lines + [line])) by {
        MatchMarksSnoc(lines, line);
        CountTrueSnoc(MatchMarks(lines), line.isCorrect);
      }
      assert lines + [line] == spec[..i + 1] by {
        assert line == spec[i];
      }
      lines := lines + [line];
      i := i + 1;
    }
    assert lines == spec;
  }

  /** Both passes of `handleSubmitExam` with one shared counter: the result
      is the review record and its score, which never exceeds the number of
      questions and prompts. */
  method Grade(qs: QuestionSet, answers: McqAnswers, slots: seq<Slot>) returns (review: Review, score: nat)
    ensures review == ReviewOf(qs, answers, slots)
    ensures score == Score(review)
    ensures score <= |qs.mcqs| + |qs.matching.prompts|
  {
    var mcqLines, mcqScore := GradeMcqs(qs.mcqs, answers);
    var matchLines, matchScore := GradeMatching(qs.matching, slots);
    review := Review(mcqLines, matchLines);
    score := mcqScore + matchScore;
  }

  // ---------------------------------------------------------------------
  // Properties of the review record and the score
  // ---------------------------------------------------------------------

  /** The review lists the questions and the prompts in their own order,
      one line each: the user's answer is the choice recorded for that index
      or the text of the card in slot `prompt-${i}` (none when unanswered or
      empty), and the correct answer is the question's answer or the
      solution's entry for the prompt (none when it has no entry). */
  lemma ReviewFollowsQuestions(qs: QuestionSet, answers: McqAnswers, slots: seq<Slot>)
    ensures var r := ReviewOf(qs, answers, slots);
            && |r.mcqs| == |qs.mcqs|
            && |r.matching| == |qs.matching.prompts|
            && (forall i :: 0 <= i < |qs.mcqs| ==>
                  && r.mcqs[i].question == qs.mcqs[i].question
                  && r.mcqs[i].correctAnswer == qs.mcqs[i].answer
                  && (i in answers ==> r.mcqs[i].userAnswer == Some(answers[i]))
                  && (i !in answers ==> r.mcqs[i].userAnswer.None?))
            && (forall i :: 0 <= i < |qs.matching.prompts| ==>
                  var prompt := qs.matching.prompts[i];
                  var occ := Occupant(slots, SlotKey(i));
                  && r.matching[i].prompt == prompt
                  && (occ.Some? ==> r.matching[i].userAnswer == Some(occ.value.content))
                  && (occ.None? ==> r.matching[i].userAnswer.None?)
                  && (prompt in qs.matching.solution ==>
                        r.matching[i].correctAnswer == Some(qs.matching.solution[prompt]))
                  && (prompt !in qs.matching.solution ==> r.matching[i].correctAnswer.None?))
  {
  }

  /** A multiple-choice line is correct exactly when that index was answered
      with the answer text; an unanswered question shows no answer and is
      wrong. */
  lemma McqVerdict(qs: QuestionSet, answers: McqAnswers, slots: seq<Slot>, i: nat)
    requires i < |qs.mcqs|
    ensures var line := ReviewOf(qs, answers, slots).mcqs[i];
            && (line.isCorrect <==> i in answers && answers[i] == qs.mcqs[i].answer)
            && (i !in answers ==> line.userAnswer.None? && !line.isCorrect)
  {
  }

  /** A matching line is correct exactly when slot `prompt-${i}` holds a
      card whose text is the solution's text for the prompt; an empty slot
      shows no answer and is wrong. */
  lemma MatchVerdict(qs: QuestionSet, answers: McqAnswers, slots: seq<Slot>, i: nat)
    requires i < |qs.matching.prompts|
    ensures var line := ReviewOf(qs, answers, slots).matching[i];
            var occ := Occupant(slots, SlotKey(i));
            var prompt := qs.matching.prompts[i];
            && (line.isCorrect <==>
                  occ.Some? && prompt in qs.matching.solution && occ.value.content == qs.matching.solution[prompt])
            && (occ.None? ==> line.userAnswer.None? && !line.isCorrect)
  {
  }

  /** The count is the number of positions holding a true mark. */
  lemma {:induction false} CountTrueCounts(marks: seq<bool>)
    ensures CountTrue(marks) == |set i | 0 <= i < |marks| && marks[i]|
  {
    if |marks| > 0 {
      var n := |marks| - 1;
      var init := marks[..n];
      CountTrueCounts(init);
      var before := set i | 0 <= i < n && init[i];
      var after := set i | 0 <= i < |marks| && marks[i];
      if marks[n] {
        assert after == before + {n};
      } else {
        assert after == before;
      }
    }
  }

  /** The score is the number of review entries whose `isCorrect` is true. */
  lemma ScoreCountsCorrectEntries(r: Review)
    ensures Score(r) == |set i | 0 <= i < |r.mcqs| && r.mcqs[i].isCorrect|
                      + |set i | 0 <= i < |r.matching| && r.matching[i].isCorrect|
  {
    var m1, m2 := McqMarks(r.mcqs), MatchMarks(r.matching);
    CountTrueCounts(m1);
    CountTrueCounts(m2);
    assert (set i | 0 <= i < |m1| && m1[i]) == (set i | 0 <= i < |r.mcqs| && r.mcqs[i].isCorrect);
    assert (set i | 0 <= i < |m2| && m2[i]) == (set i | 0 <= i < |r.matching| && r.matching[i].isCorrect);
  }

  /** The count is full exactly when every mark is true. */
  lemma {:induction false} CountTrueFull(marks: seq<bool>)
    ensures CountTrue(marks) == |marks| <==> forall i :: 0 <= i < |marks| ==> marks[i]
  {
    if |marks| > 0 {
      var init := marks[..|marks| - 1];
      CountTrueFull(init);
      assert forall i :: 0 <= i < |init| ==> init[i] == marks[i];
    }
  }

  /** The score reaches the question count exactly when every line of the
      review is correct. */
  lemma FullMarks(r: Review)
    ensures Score(r) == |r.mcqs| + |r.matching| <==>
              (forall i :: 0 <= i < |r.mcqs| ==> r.mcqs[i].isCorrect) &&
              (forall i :: 0 <= i < |r.matching| ==> r.matching[i].isCorrect)
  {
    CountTrueFull(McqMarks(r.mcqs));
    CountTrueFull(MatchMarks(r.matching));
  }

  /** The count is zero exactly when no mark is true. */
  lemma {:induction false} CountTrueZero(marks: seq<bool>)
    ensures CountTrue(marks) == 0 <==> forall i :: 0 <= i < |marks| ==> !marks[i]
  {
    if |marks| > 0 {
      var init := marks[..|marks| - 1];
      CountTrueZero(init);
      assert forall i :: 0 <= i < |init| ==> init[i] == marks[i];
    }
  }

  /** The score is zero exactly when no line of the review is correct; a
      submission with nothing answered and nothing placed scores zero. */
  lemma NoMarks(qs: QuestionSet, slots: seq<Slot>)
    requires forall i :: 0 <= i < |qs.matching.prompts| ==> Occupant(slots, SlotKey(i)).None?
    ensures Score(ReviewOf(qs, map[], slots)) == 0
  {
    var r := ReviewOf(qs, map[], slots);
    CountTrueZero(McqMarks(r.mcqs));
    CountTrueZero(MatchMarks(r.matching));
  }

  /** The question "2+2?" with options 3 and 4 and answer 4: answering 4
      marks it correct and scores one; leaving it unanswered marks it wrong
      with no answer shown. */
  lemma ArithmeticExample()
    ensures var qs := QuestionSet([Mcq("2+2?", ["3", "4"], "4")], MatchingQuestion([], [], map[]));
            var answered := ReviewOf(qs, map[0 := "4"], []);
            var blank := ReviewOf(qs, map[], []);
            && answered.mcqs[0].isCorrect && Score(answered) == 1
            && !blank.mcqs[0].isCorrect && blank.mcqs[0].userAnswer.None? && Score(blank) == 0
  {
    var qs := QuestionSet([Mcq("2+2?", ["3", "4"], "4")], MatchingQuestion([], [], map[]));
    var answered := ReviewOf(qs, map[0 := "4"], []);
    assert answered.mcqs[..0] == [];
    var blank := ReviewOf(qs, map[], []);
    assert blank.mcqs[..0] == [];
  }

  /** One correct multiple-choice answer and one wrongly filled prompt:
      the score is 1 out of 2. */
  lemma HalfMarksExample()
    ensures var qs := QuestionSet([Mcq("2+2?", ["3", "4"], "4")],
                                  MatchingQuestion(["Sun"], ["Star", "Moon"], map["Sun" := "Star"]));
            var slots := [Slot(SlotKey(0), Some(Item("answer-1", "Moon")))];
            var r := ReviewOf(qs, map[0 := "4"], slots);
            && Score(r) == 1 && |r.mcqs| + |r.matching| == 2
            && r.mcqs[0].isCorrect && !r.matching[0].isCorrect
  {
    var qs := QuestionSet([Mcq("2+2?", ["3", "4"], "4")],
                          MatchingQuestion(["Sun"], ["Star", "Moon"], map["Sun" := "Star"]));
    var slots := [Slot(SlotKey(0), Some(Item("answer-1", "Moon")))];
    var r := ReviewOf(qs, map[0 := "4"], slots);
    assert Occupant(slots, SlotKey(0)) == Some(Item("answer-1", "Moon"));
    assert "Moon" != "Star";
    assert r.mcqs[..0] == [] && r.matching[..0] == [];
  }
}

=== FILE: matching.dfy ===
/** The drag-and-drop matching board of one exam: the ordered `answerPool`,
    the `droppedAnswers` object from slot id to occupant, and the
    `handleDragEnd` transition that moves answer cards between them
    (frontend/src/App.jsx). */
module Matching {
  import opened Common

  /** An answer card `{ id, content }`. */
  datatype Item = Item(id: string, content: string)

  /** One own property of `droppedAnswers`: a slot id and its occupant
      (None for `null`). The object is kept as a list of properties in
      insertion order, the order `Object.values` and `Object.keys` visit. */
  datatype Slot = Slot(key: string, held: Option<Item>)

  /** The matching state: unassigned cards in pool order, and the slots. */
  datatype Board = Board(pool: seq<Item>, slots: seq<Slot>)

  /** Droppable id the pool branch of the drag handler tests for. */
  const PoolId: string := "answerPool"
  /** Prefix of every slot id. */
  const SlotPrefix: string := "prompt-"
  /** Prefix of every card id. */
  const ItemPrefix: string := "answer-"

  /** Slot id of prompt i: `prompt-${i}`. */
  function SlotKey(i: nat): (k: string)
    ensures SlotPrefix <= k && k != PoolId
  {
    var k := SlotPrefix + Decimal(i);
    assert k[0] == 'p' && PoolId[0] == 'a';
    k
  }

  /** Card id of answer i: `answer-${i}`. */
  function ItemId(i: nat): (id: string)
    ensures ItemPrefix <= id
  {
    ItemPrefix + Decimal(i)
  }

  // ---------------------------------------------------------------------
  // Views of a board
  // ---------------------------------------------------------------------

  /** An optional occupant as a multiset of zero or one card. */
  function OptBag(o: Option<Item>): multiset<Item> {
    if o.Some? then multiset{o.value} else multiset{}
  }

  /** An optional occupant as a list of zero or one card. */
  function OptSeq(o: Option<Item>): seq<Item> {
    if o.Some? then [o.value] else []
  }

  /** The cards held by the slots, with multiplicity. */
  function SlotBag(slots: seq<Slot>): multiset<Item> {
    if |slots| == 0 then multiset{} else OptBag(slots[0].held) + SlotBag(slots[1..])
  }

  /** Every card on the board (pool and slots), with multiplicity. */
  function Placed(b: Board): multiset<Item> {
    multiset(b.pool) + SlotBag(b.slots)
  }

  /** The slot ids in property order: `Object.keys(droppedAnswers)`. */
  function Keys(slots: seq<Slot>): (r: seq<string>)
    ensures |r| == |slots|
    ensures forall i :: 0 <= i < |slots| ==> r[i] == slots[i].key
  {
    if |slots| == 0 then [] else [slots[0].key] + Keys(slots[1..])
  }

  /** The slot list is a faithful encoding of an object: no key twice. */
  predicate KeysDistinct(slots: seq<Slot>) {
    Distinct(Keys(slots))
  }

  /** Cards with the same id are the same card. */
  ghost predicate Coherent(b: Board) {
    forall x, y :: x in Placed(b) && y in Placed(b) && x.id == y.id ==> x == y
  }

  /** The central invariant: every card sits in at most one place (the pool
      or one slot), and an id names one card. */
  ghost predicate Unique(b: Board) {
    Coherent(b) && forall x :: Placed(b)[x] <= 1
  }

  // ---------------------------------------------------------------------
  // The primitive reads and writes handleDragEnd is built from
  // ---------------------------------------------------------------------

  /** `answerPool.find(a => a.id === id)`: the first card with that id. */
  function FindInPool(pool: seq<Item>, id: string): (r: Option<Item>)
    ensures r.Some? ==> r.value in pool && r.value.id == id
    ensures r.None? ==> forall x :: x in pool ==> x.id != id
    ensures forall i :: 0 <= i < |pool| && pool[i].id == id && (forall j :: 0 <= j < i ==> pool[j].id != id)
              ==> r == Some(pool[i])
  {
    if |pool| == 0 then None
    else if pool[0].id == id then Some(pool[0])
    else
      assert forall i :: 1 <= i < |pool| ==> pool[1..][i - 1] == pool[i];
      FindInPool(pool[1..], id)
  }

  /** The slot is occupied by a card with that id. */
  predicate HoldsId(s: Slot, id: string) {
    s.held.Some? && s.held.value.id == id
  }

  /** `Object.values(droppedAnswers).find(item => item && item.id === id)`:
      the occupant with that id of the first slot, in property order, that
      holds one. */
  function FindInSlots(slots: seq<Slot>, id: string): (r: Option<Item>)
    ensures r.Some? ==> r.value in SlotBag(slots) && r.value.id == id
    ensures r.None? ==> forall x :: x in SlotBag(slots) ==> x.id != id
    ensures forall i :: 0 <= i < |slots| && HoldsId(slots[i], id) && (forall j :: 0 <= j < i ==> !HoldsId(slots[j], id))
              ==> r == slots[i].held
  {
    if |slots| == 0 then None
    else if HoldsId(slots[0], id) then slots[0].held
    else
      assert forall i :: 1 <= i < |slots| ==> slots[1..][i - 1] == slots[i];
      assert SlotBag(slots) == OptBag(slots[0].held) + SlotBag(slots[1..]);
      FindInSlots(slots[1..], id)
  }

  /** `draggedItem`: the card with that id, looked up in the pool first and
      then in the slots; None when no card on the board has that id. */
  function Dragged(b: Board, id: string): (r: Option<Item>)
    ensures r.Some? ==> r.value in Placed(b) && r.value.id == id
    ensures r.None? <==> forall x :: x in Placed(b) ==> x.id != id
  {
    var p := FindInPool(b.pool, id);
    if p.Some? then p else FindInSlots(b.slots, id)
  }

  /** `droppedAnswers[key]`: the value of the property named `key`; a
      missing property and `null` both read as no occupant, as the
      truthiness tests in the source treat them. */
  function Occupant(slots: seq<Slot>, key: string): (r: Option<Item>)
    ensures r.Some? ==> r.value in SlotBag(slots)
    ensures key !in Keys(slots) ==> r.None?
    ensures forall i :: 0 <= i < |slots| && slots[i].key == key && (forall j :: 0 <= j < i ==> slots[j].key != key)
              ==> r == slots[i].held
  {
    if |slots| == 0 then None
    else if slots[0].key == key then slots[0].held
    else
      assert forall i :: 1 <= i < |slots| ==> slots[1..][i - 1] == slots[i];
      Occupant(slots[1..], key)
  }

  /** A slot emptied if its occupant has the given id, otherwise unchanged. */
  function Vacate(s: Slot, id: string): Slot {
    if HoldsId(s, id) then Slot(s.key, None) else s
  }

  /** The `Object.keys(newDropped).forEach` sweep: every slot whose occupant
      has the dragged id becomes `null`; the keys stay as they were. */
  function ClearId(slots: seq<Slot>, id: string): (r: seq<Slot>)
    ensures Keys(r) == Keys(slots)
    ensures forall x :: x in SlotBag(r) ==> x.id != id
  {
    if |slots| == 0 then []
    else
      var rest := ClearId(slots[1..], id);
      assert ([Vacate(slots[0], id)] + rest)[1..] == rest;
      [Vacate(slots[0], id)] + rest
  }

  /** `newDropped[key] = v`: overwrites the property in place when it
      exists, adds it last otherwise. */
  function Put(slots: seq<Slot>, key: string, v: Option<Item>): (r: seq<Slot>)
    ensures key in Keys(slots) ==> Keys(r) == Keys(slots)
    ensures key !in Keys(slots) ==> Keys(r) == Keys(slots) + [key]
    ensures Occupant(r, key) == v
    ensures forall k :: k != key ==> Occupant(r, k) == Occupant(slots, k)
  {
    if |slots| == 0 then [Slot(key, v)]
    else if slots[0].key == key then
      assert ([Slot(key, v)] + slots[1..])[1..] == slots[1..];
      [Slot(key, v)] + slots[1..]
    else
      var rest := Put(slots[1..], key, v);
      assert ([slots[0]] + rest)[1..] == rest;
      [slots[0]] + rest
  }

  /** `prevPool.filter(item => item.id !== id)`. */
  function Without(pool: seq<Item>, id: string): (r: seq<Item>)
    ensures forall x :: x in r <==> x in pool && x.id != id
    ensures (forall x :: x in pool ==> x.id != id) ==> r == pool
  {
    if |pool| == 0 then []
    else if pool[0].id == id then Without(pool[1..], id)
    else
      var rest := Without(pool[1..], id);
      assert pool == [pool[0]] + pool[1..];
      [pool[0]] + rest
  }

  // ---------------------------------------------------------------------
  // Operations
  // ---------------------------------------------------------------------

  /** The cards `startExam` creates: `{ id: answer-${i}, content: answers[i] }`
      for each answer, in order. */
  function Cards(answers: seq<string>): (r: seq<Item>)
    ensures |r| == |answers|
    ensures forall i :: 0 <= i < |r| ==> r[i].id == ItemId(i) && r[i].content == answers[i]
  {
    seq(|answers|, i requires 0 <= i < |answers| => Item(ItemId(i), answers[i]))
  }

  /** The board `startExam` builds: every card in the pool and one empty
      slot `prompt-${i}` per prompt. */
  function NewBoard(promptCount: nat, answers: seq<string>): Board {
    Board(Cards(answers), FreshSlots(promptCount))
  }

  /** `initialDropped`: property `prompt-${i}` set to `null` for each prompt. */
  function FreshSlots(n: nat): (r: seq<Slot>)
    ensures |r| == n
    ensures forall i :: 0 <= i < n ==> r[i] == Slot(SlotKey(i), None)
  {
    seq(n, i requires 0 <= i < n => Slot(SlotKey(i), None))
  }

  /** `handleDragEnd`: the card with id `active` is released over the
      droppable `over` (None when it is released over nothing). No slot is
      ever removed and at most the target slot is added; a card dropped on a
      slot ends up in that slot, and one dropped on the pool ends up in the
      pool. */
  function Drop(b: Board, active: string, over: Option<string>): (r: Board)
    ensures Keys(r.slots) == Keys(b.slots) || (over.Some? && Keys(r.slots) == Keys(b.slots) + [over.value])
    ensures over.Some? && SlotPrefix <= over.value && Dragged(b, active).Some? ==>
              Occupant(r.slots, over.value) == Dragged(b, active)
    ensures over == Some(PoolId) && Dragged(b, active).Some? ==> Dragged(b, active).value in r.pool
    ensures over.None? ==> r == b
  {
    if over.None? then b
    else
      match Dragged(b, active)
      case None => b
      case Some(d) =>
        if over.value == PoolId then
          assert !(SlotPrefix <= PoolId) by { assert PoolId[0] == 'a'; }
          Board(if FindInPool(b.pool, active).Some? then b.pool else b.pool + [d],
                ClearId(b.slots, active))
        else if SlotPrefix <= over.value then
          Board(Without(b.pool, active) + OptSeq(Occupant(b.slots, over.value)),
                Put(ClearId(b.slots, active), over.value, Some(d)))
        else b
  }

  /** The dragged card is released over the very slot that already holds it. */
  predicate SelfDrop(b: Board, active: string, over: Option<string>) {
    && over.Some?
    && SlotPrefix <= over.value
    && Occupant(b.slots, over.value).Some?
    && Occupant(b.slots, over.value).value.id == active
  }

  /** One drag gesture: the dragged id and the droppable it ends over. */
  datatype Move = Move(active: string, over: Option<string>)

  /** A sequence of drags, applied one after another. */
  function Replay(b: Board, moves: seq<Move>): Board
    decreases |moves|
  {
    if |moves| == 0 then b else Replay(Drop(b, moves[0].active, moves[0].over), moves[1..])
  }

  /** No drag in the sequence is a self-drop in the state it is applied to. */
  predicate NoSelfDrops(b: Board, moves: seq<Move>)
    decreases |moves|
  {
    |moves| == 0 ||
    (!SelfDrop(b, moves[0].active, moves[0].over)
     && NoSelfDrops(Drop(b, moves[0].active, moves[0].over), moves[1..]))
  }
}

=== FILE: matching_laws.dfy ===
/** Properties of the matching board: what one drag does to every card's
    place, the exactly-once invariant and where it breaks (frontend/src/App.jsx,
    handleDragEnd and startExam). */
module MatchingLaws {
  import opened Common
  import opened Matching

  // ---------------------------------------------------------------------
  // Bookkeeping: how each primitive changes the multiset of cards
  // ---------------------------------------------------------------------

  /** Filtering the pool by id drops exactly the cards with that id. */
  lemma {:induction false} WithoutBag(pool: seq<Item>, id: string, x: Item)
    ensures multiset(Without(pool, id))[x] == if x.id == id then 0 else multiset(pool)[x]
  {
    if |pool| > 0 {
      WithoutBag(pool[1..], id, x);
      assert pool == [pool[0]] + pool[1..];
    }
  }

  /** Filtering keeps the pool order: filtering a concatenation filters each
      part and concatenates the results. */
  lemma {:induction false} WithoutAppend(a: seq<Item>, b: seq<Item>, id: string)
    ensures Without(a + b, id) == Without(a, id) + Without(b, id)
  {
    if |a| == 0 {
      assert a + b == b;
    } else {
      var h := if a[0].id == id then [] else [a[0]];
      var rest := Without(a[1..], id);
      var wb := Without(b, id);
      assert Without(a + b, id) == h + Without(a[1..] + b, id) by {
        assert (a + b)[0] == a[0] && (a + b)[1..] == a[1..] + b;
        WithoutCons(a + b, id);
      }
      assert Without(a, id) == h + rest by {
        WithoutCons(a, id);
      }
      assert Without(a[1..] + b, id) == rest + wb by {
        WithoutAppend(a[1..], b, id);
      }
      SplitJoin(Without(a + b, id), Without(a, id), h, Without(a[1..] + b, id), rest, wb);
    }
  }

  /** One step of the filter: the first card is kept or dropped by its id. */
  lemma WithoutCons(s: seq<Item>, id: string)
    requires |s| > 0
    ensures Without(s, id) == (if s[0].id == id then [] else [s[0]]) + Without(s[1..], id)
  {
  }

  /** Filtering a single card keeps it exactly when its id differs. */
  lemma WithoutSingle(x: Item, id: string)
    ensures Without([x], id) == if x.id == id then [] else [x]
  {
    assert [x][1..] == [];
  }

  /** Clearing by id empties exactly the slots holding a card with that id. */
  lemma {:induction false} ClearBag(slots: seq<Slot>, id: string, x: Item)
    ensures SlotBag(ClearId(slots, id))[x] == if x.id == id then 0 else SlotBag(slots)[x]
  {
    if |slots| > 0 {
      ClearBag(slots[1..], id, x);
      var r := ClearId(slots, id);
      assert r[1..] == ClearId(slots[1..], id);
    }
  }

  /** Writing a slot trades its old occupant for the new one. */
  lemma {:induction false} PutBag(slots: seq<Slot>, key: string, v: Option<Item>)
    ensures SlotBag(Put(slots, key, v)) + OptBag(Occupant(slots, key)) == SlotBag(slots) + OptBag(v)
  {
    if |slots| > 0 && slots[0].key == key {
      assert Put(slots, key, v)[1..] == slots[1..];
    } else if |slots| > 0 {
      PutBag(slots[1..], key, v);
      PutBagStep(slots, key, v);
    }
  }

  /** The inductive step of PutBag: a first slot with another key is kept. */
  lemma PutBagStep(slots: seq<Slot>, key: string, v: Option<Item>)
    requires |slots| > 0 && slots[0].key != key
    requires SlotBag(Put(slots[1..], key, v)) + OptBag(Occupant(slots[1..], key)) == SlotBag(slots[1..]) + OptBag(v)
    ensures SlotBag(Put(slots, key, v)) + OptBag(Occupant(slots, key)) == SlotBag(slots) + OptBag(v)
  {
    PutPastHead(slots, key, v);
    var h := OptBag(slots[0].held);
    var rest := SlotBag(Put(slots[1..], key, v));
    var o := OptBag(Occupant(slots[1..], key));
    calc {
      SlotBag(Put(slots, key, v)) + OptBag(Occupant(slots, key));
      (h + rest) + o;
      h + (rest + o);
      h + (SlotBag(slots[1..]) + OptBag(v));
      (h + SlotBag(slots[1..])) + OptBag(v);
    }
  }

  /** Writing a key the first slot does not have keeps that slot in front
      of the written rest, and reading the key skips it. */
  lemma PutPastHead(slots: seq<Slot>, key: string, v: Option<Item>)
    requires |slots| > 0 && slots[0].key != key
    ensures SlotBag(Put(slots, key, v)) == OptBag(slots[0].held) + SlotBag(Put(slots[1..], key, v))
    ensures SlotBag(slots) == OptBag(slots[0].held) + SlotBag(slots[1..])
    ensures Occupant(slots, key) == Occupant(slots[1..], key)
  {
    var r := Put(slots, key, v);
    var rest := Put(slots[1..], key, v);
    assert r == [slots[0]] + rest;
    assert r[0] == slots[0] && r[1..] == rest;
  }


  /** After the clearing sweep a slot reads empty exactly when its occupant had the id. */
  lemma {:induction false} OccupantClear(slots: seq<Slot>, id: string, key: string)
    ensures Occupant(ClearId(slots, id), key)
         == if Occupant(slots, key).Some? && Occupant(slots, key).value.id == id then None
            else Occupant(slots, key)
  {
    if |slots| > 0 {
      var r := ClearId(slots, id);
      assert r[1..] == ClearId(slots[1..], id);
      if slots[0].key != key {
        OccupantClear(slots[1..], id, key);
      }
    }
  }

  /** Clearing by an id no slotted card carries changes nothing. */
  lemma {:induction false} ClearAbsent(slots: seq<Slot>, id: string)
    requires forall x :: x in SlotBag(slots) ==> x.id != id
    ensures ClearId(slots, id) == slots
  {
    if |slots| > 0 {
      assert slots[0].held.Some? ==> slots[0].held.value in SlotBag(slots);
      ClearAbsent(slots[1..], id);
      var r := ClearId(slots, id);
      assert r[1..] == ClearId(slots[1..], id);
      assert r[0] == slots[0];
    }
  }

  /** Clearing by id twice is clearing once. */
  lemma {:induction false} ClearIdIdempotent(slots: seq<Slot>, id: string)
    ensures ClearId(ClearId(slots, id), id) == ClearId(slots, id)
  {
    if |slots| > 0 {
      var r := ClearId(slots, id);
      assert r[1..] == ClearId(slots[1..], id);
      ClearIdIdempotent(slots[1..], id);
      var rr := ClearId(r, id);
      assert rr[1..] == ClearId(r[1..], id);
    }
  }

  /** Multiplicity of every card after a drop on a slot: cards with another
      id keep theirs; a card with the dragged id is counted once for the
      destination slot and once more if it was the destination's occupant. */
  lemma SlotDropCount(b: Board, active: string, t: string, d: Item, x: Item)
    requires Dragged(b, active) == Some(d)
    requires SlotPrefix <= t
    ensures Placed(Drop(b, active, Some(t)))[x]
         == if x.id == active then OptBag(Occupant(b.slots, t))[x] + (if x == d then 1 else 0)
            else Placed(b)[x]
  {
    assert t != PoolId by { assert t[0] == 'p' && PoolId[0] == 'a'; }
    var occ := Occupant(b.slots, t);
    var cleared := ClearId(b.slots, active);
    var pool := Without(b.pool, active) + OptSeq(occ);
    var slots := Put(cleared, t, Some(d));
    assert Drop(b, active, Some(t)) == Board(pool, slots);
    PoolPartCount(b.pool, active, occ, x);
    SlotPartCount(b.slots, active, t, d, x);
  }

  /** The pool half of a drop on a slot, card by card. */
  lemma PoolPartCount(pool: seq<Item>, active: string, occ: Option<Item>, x: Item)
    ensures multiset(Without(pool, active) + OptSeq(occ))[x]
         == (if x.id == active then 0 else multiset(pool)[x]) + OptBag(occ)[x]
  {
    WithoutBag(pool, active, x);
    assert multiset(OptSeq(occ)) == OptBag(occ);
  }

  /** The slot half of a drop on a slot, card by card. */
  lemma SlotPartCount(slots: seq<Slot>, active: string, t: string, d: Item, x: Item)
    requires d.id == active
    ensures SlotBag(Put(ClearId(slots, active), t, Some(d)))[x]
         == if x.id == active then (if x == d then 1 else 0)
            else SlotBag(slots)[x] - OptBag(Occupant(slots, t))[x]
  {
    var cleared := ClearId(slots, active);
    var put := Put(cleared, t, Some(d));
    var occ := Occupant(slots, t);
    var oc := Occupant(cleared, t);
    ClearBag(slots, active, x);
    OccupantClear(slots, active, t);
    PutBag(cleared, t, Some(d));
    assert (SlotBag(put) + OptBag(oc))[x] == (SlotBag(cleared) + OptBag(Some(d)))[x];
    assert SlotBag(put)[x] + OptBag(oc)[x] == SlotBag(cleared)[x] + OptBag(Some(d))[x];
    if x.id == active {
      assert OptBag(oc)[x] == 0;
    } else {
      assert OptBag(oc)[x] == OptBag(occ)[x];
      if occ == Some(x) {
        assert x in SlotBag(slots);
      }
    }
  }

  /** Multiplicity of every card after a drop on the pool: cards with another
      id keep theirs; a card with the dragged id stays only where it was in
      the pool, plus the appended copy when the pool did not have the id. */
  lemma PoolDropCount(b: Board, active: string, d: Item, x: Item)
    requires Dragged(b, active) == Some(d)
    ensures Placed(Drop(b, active, Some(PoolId)))[x]
         == if x.id == active then
              multiset(b.pool)[x] + (if FindInPool(b.pool, active).None? && x == d then 1 else 0)
            else Placed(b)[x]
  {
    ClearBag(b.slots, active, x);
  }

  // ---------------------------------------------------------------------
  // Drops that change nothing
  // ---------------------------------------------------------------------

  /** No target, an id no card carries, or a target that is neither the pool
      nor a `prompt-` slot: the board is left as it was. */
  lemma DropNoOp(b: Board, active: string, over: Option<string>)
    requires || over.None?
             || (forall x :: x in Placed(b) ==> x.id != active)
             || (over.value != PoolId && !(SlotPrefix <= over.value))
    ensures Drop(b, active, over) == b
  {
  }

  // ---------------------------------------------------------------------
  // Drop on a slot
  // ---------------------------------------------------------------------

  /** Dropping card d on slot t that does not already hold it: d ends up in
      t, leaves the pool, any other slot that held it is emptied, every other
      slot keeps its occupant, and t's previous occupant goes to the end of
      the pool. */
  lemma DropOnSlot(b: Board, d: Item, t: string)
    requires Coherent(b)
    requires d in Placed(b)
    requires SlotPrefix <= t
    requires !SelfDrop(b, d.id, Some(t))
    ensures Occupant(Drop(b, d.id, Some(t)).slots, t) == Some(d)
    ensures forall x :: x in Drop(b, d.id, Some(t)).pool ==> x != d
    ensures forall k :: k != t ==>
              Occupant(Drop(b, d.id, Some(t)).slots, k)
              == if Occupant(b.slots, k) == Some(d) then None else Occupant(b.slots, k)
    ensures Drop(b, d.id, Some(t)).pool == Without(b.pool, d.id) + OptSeq(Occupant(b.slots, t))
  {
    assert t != PoolId by { assert t[0] == 'p' && PoolId[0] == 'a'; }
    assert Dragged(b, d.id) == Some(d);
    var r := Drop(b, d.id, Some(t));
    assert r == Board(Without(b.pool, d.id) + OptSeq(Occupant(b.slots, t)), Put(ClearId(b.slots, d.id), t, Some(d)));
    forall k | k != t
      ensures Occupant(r.slots, k) == if Occupant(b.slots, k) == Some(d) then None else Occupant(b.slots, k)
    {
      OccupantClear(b.slots, d.id, k);
    }
  }

  /** The worked example: answers X, Y, Z with three prompts; Y is dropped
      on slot 1, then X on slot 1. X holds slot 1, Y was displaced to the
      end of the pool after Z, and the other slots are empty. */
  lemma DisplacementScenario()
    ensures var b0 := NewBoard(3, ["X", "Y", "Z"]);
            var b1 := Drop(b0, "answer-1", Some("prompt-1"));
            var b2 := Drop(b1, "answer-0", Some("prompt-1"));
            && b2.pool == [Item("answer-2", "Z"), Item("answer-1", "Y")]
            && Occupant(b2.slots, "prompt-1") == Some(Item("answer-0", "X"))
            && Occupant(b2.slots, "prompt-0") == None
            && Occupant(b2.slots, "prompt-2") == None
  {
    ScenarioFirstDrop();
    var b1 := Drop(NewBoard(3, ["X", "Y", "Z"]), "answer-1", Some("prompt-1"));
    ScenarioSecondDrop(b1);
    ScenarioSecondPool(b1);
  }

  /** Y onto the empty slot 1 of the fresh board. */
  lemma ScenarioFirstDrop()
    ensures var b1 := Drop(NewBoard(3, ["X", "Y", "Z"]), "answer-1", Some("prompt-1"));
            && Unique(b1)
            && b1.pool == [Item("answer-0", "X"), Item("answer-2", "Z")]
            && Occupant(b1.slots, "prompt-1") == Some(Item("answer-1", "Y"))
            && Occupant(b1.slots, "prompt-0") == None
            && Occupant(b1.slots, "prompt-2") == None
  {
    var y := Item("answer-1", "Y");
    var b0 := NewBoard(3, ["X", "Y", "Z"]);
    ScenarioStart();
    NewBoardFacts(3, ["X", "Y", "Z"]);
    assert y in Placed(b0);
    assert "prompt-0" != "prompt-1" by { assert "prompt-0"[7] != "prompt-1"[7]; }
    assert "prompt-2" != "prompt-1" by { assert "prompt-2"[7] != "prompt-1"[7]; }
    assert Occupant(b0.slots, "prompt-0") == None;
    assert Occupant(b0.slots, "prompt-1") == None;
    assert Occupant(b0.slots, "prompt-2") == None;
    DropOnSlot(b0, y, "prompt-1");
    DropConserves(b0, y.id, Some("prompt-1"));
    ScenarioFilters();
  }

  /** X onto slot 1, which holds Y: X takes the slot, the others stay empty. */
  lemma ScenarioSecondDrop(b1: Board)
    requires Unique(b1)
    requires b1.pool == [Item("answer-0", "X"), Item("answer-2", "Z")]
    requires Occupant(b1.slots, "prompt-1") == Some(Item("answer-1", "Y"))
    requires Occupant(b1.slots, "prompt-0") == None
    requires Occupant(b1.slots, "prompt-2") == None
    ensures var b2 := Drop(b1, "answer-0", Some("prompt-1"));
            && Occupant(b2.slots, "prompt-1") == Some(Item("answer-0", "X"))
            && Occupant(b2.slots, "prompt-0") == None
            && Occupant(b2.slots, "prompt-2") == None
  {
    var x := Item("answer-0", "X");
    assert x in Placed(b1) by { assert x in b1.pool; }
    assert !SelfDrop(b1, x.id, Some("prompt-1")) by {
      assert "answer-1" != "answer-0" by { assert "answer-1"[7] != "answer-0"[7]; }
    }
    DropOnSlot(b1, x, "prompt-1");
    assert "prompt-0" != "prompt-1" by { assert "prompt-0"[7] != "prompt-1"[7]; }
    assert "prompt-2" != "prompt-1" by { assert "prompt-2"[7] != "prompt-1"[7]; }
  }

  /** X onto slot 1, which holds Y: Y is appended to the pool after Z. */
  lemma ScenarioSecondPool(b1: Board)
    requires Unique(b1)
    requires b1.pool == [Item("answer-0", "X"), Item("answer-2", "Z")]
    requires Occupant(b1.slots, "prompt-1") == Some(Item("answer-1", "Y"))
    ensures Drop(b1, "answer-0", Some("prompt-1")).pool == [Item("answer-2", "Z"), Item("answer-1", "Y")]
  {
    var x := Item("answer-0", "X");
    assert x in Placed(b1) by { assert x in b1.pool; }
    assert !SelfDrop(b1, x.id, Some("prompt-1")) by {
      assert "answer-1" != "answer-0" by { assert "answer-1"[7] != "answer-0"[7]; }
    }
    DropOnSlot(b1, x, "prompt-1");
    ScenarioFilters();
  }

  /** The scenario's starting board. */
  lemma ScenarioStart()
    ensures NewBoard(3, ["X", "Y", "Z"])
         == Board([Item("answer-0", "X"), Item("answer-1", "Y"), Item("answer-2", "Z")],
                  [Slot("prompt-0", None), Slot("prompt-1", None), Slot("prompt-2", None)])
  {
    assert Decimal(0) == "0" && Decimal(1) == "1" && Decimal(2) == "2";
    assert ItemId(0) == "answer-0" && ItemId(1) == "answer-1" && ItemId(2) == "answer-2";
    assert SlotKey(0) == "prompt-0" && SlotKey(1) == "prompt-1" && SlotKey(2) == "prompt-2";
  }

  /** The two pool filters the scenario performs. */
  lemma ScenarioFilters()
    ensures Without([Item("answer-0", "X"), Item("answer-1", "Y"), Item("answer-2", "Z")], "answer-1")
         == [Item("answer-0", "X"), Item("answer-2", "Z")]
    ensures Without([Item("answer-0", "X"), Item("answer-2", "Z")], "answer-0") == [Item("answer-2", "Z")]
  {
    var pool := [Item("answer-0", "X"), Item("answer-1", "Y"), Item("answer-2", "Z")];
    assert "answer-0" != "answer-1" by { assert "answer-0"[7] != "answer-1"[7]; }
    assert "answer-2" != "answer-1" by { assert "answer-2"[7] != "answer-1"[7]; }
    assert "answer-2" != "answer-0" by { assert "answer-2"[7] != "answer-0"[7]; }
    assert pool[1..] == [Item("answer-1", "Y"), Item("answer-2", "Z")];
    assert pool[1..][1..] == [Item("answer-2", "Z")];
    assert pool[1..][1..][1..] == [];
    assert Without(pool[1..][1..], "answer-1") == [Item("answer-2", "Z")];
    var pool2 := [Item("answer-0", "X"), Item("answer-2", "Z")];
    assert pool2[1..] == [Item("answer-2", "Z")] && pool2[1..][1..] == [];
  }

  // ---------------------------------------------------------------------
  // The exactly-once invariant
  // ---------------------------------------------------------------------

  /** A drop that is not a self-drop keeps every card in exactly the places
      it had: the multiset of cards on the board is unchanged, so a board on
      which every card sits once stays that way. */
  lemma DropConserves(b: Board, active: string, over: Option<string>)
    requires Unique(b)
    requires !SelfDrop(b, active, over)
    ensures Placed(Drop(b, active, over)) == Placed(b)
    ensures Unique(Drop(b, active, over))
  {
    if over.Some? && Dragged(b, active).Some? {
      var d := Dragged(b, active).value;
      if over.value == PoolId {
        forall x ensures Placed(Drop(b, active, over))[x] == Placed(b)[x] {
          PoolDropConservesAt(b, active, d, x);
        }
      } else if SlotPrefix <= over.value {
        forall x ensures Placed(Drop(b, active, over))[x] == Placed(b)[x] {
          SlotDropConservesAt(b, active, over.value, d, x);
        }
      }
    }
  }

  /** One card's multiplicity across a drop on the pool, on a board where
      every card sits once. */
  lemma PoolDropConservesAt(b: Board, active: string, d: Item, x: Item)
    requires Unique(b)
    requires Dragged(b, active) == Some(d)
    ensures Placed(Drop(b, active, Some(PoolId)))[x] == Placed(b)[x]
  {
    PoolDropCount(b, active, d, x);
    if x.id == active {
      if x in Placed(b) {
        assert x == d;
      }
      if FindInPool(b.pool, active).None? {
        assert multiset(b.pool)[d] == 0;
      } else {
        var p := FindInPool(b.pool, active).value;
        assert p == d by { assert p in Placed(b); }
        assert multiset(b.pool)[d] >= 1;
      }
    }
  }

  /** One card's multiplicity across a drop on a slot that does not already
      hold the dragged card, on a board where every card sits once. */
  lemma SlotDropConservesAt(b: Board, active: string, t: string, d: Item, x: Item)
    requires Unique(b)
    requires Dragged(b, active) == Some(d)
    requires SlotPrefix <= t
    requires !SelfDrop(b, active, Some(t))
    ensures Placed(Drop(b, active, Some(t)))[x] == Placed(b)[x]
  {
    SlotDropCount(b, active, t, d, x);
    if x.id == active && x in Placed(b) {
      assert x == d;
    }
  }

  /** Dropping a card on the slot that already holds it appends the card to
      the pool and also writes it back into the slot, so afterwards it sits
      in two places. */
  lemma SelfDropDuplicates(b: Board, t: string)
    requires Unique(b)
    requires SlotPrefix <= t
    requires Occupant(b.slots, t).Some?
    ensures var d := Occupant(b.slots, t).value;
            var r := Drop(b, d.id, Some(t));
            && r.pool == b.pool + [d]
            && Occupant(r.slots, t) == Some(d)
            && Placed(r)[d] == 2
            && !Unique(r)
  {
    assert t != PoolId by { assert t[0] == 'p' && PoolId[0] == 'a'; }
    var d := Occupant(b.slots, t).value;
    var r := Drop(b, d.id, Some(t));
    assert forall x :: x in b.pool ==> x.id != d.id by {
      forall x | x in b.pool ensures x.id != d.id {
        assert x in Placed(b) && d in Placed(b);
      }
    }
    assert Dragged(b, d.id) == Some(d) by {
      assert d in Placed(b);
    }
    assert Without(b.pool, d.id) == b.pool;
    assert r.pool == b.pool + [d];
    assert Placed(r)[d] == 2 by {
      SlotDropCount(b, d.id, t, d, d);
    }
  }

  /** Any drop, self-drops included, neither loses a card nor invents one,
      as long as an id names one card. */
  lemma DropKeepsCards(b: Board, active: string, over: Option<string>)
    requires Coherent(b)
    ensures forall x :: x in Placed(Drop(b, active, over)) <==> x in Placed(b)
    ensures Coherent(Drop(b, active, over))
  {
    var r := Drop(b, active, over);
    if over.Some? && Dragged(b, active).Some? {
      var d := Dragged(b, active).value;
      var t := over.value;
      if t == PoolId {
        forall x ensures x in Placed(r) <==> x in Placed(b) {
          PoolDropCount(b, active, d, x);
          if x.id == active {
            if FindInPool(b.pool, active).Some? {
              var p := FindInPool(b.pool, active).value;
              assert p == d;
              if x in Placed(b) {
                assert x == d;
              }
            } else if x in Placed(b) {
              assert x == d;
            }
          }
        }
      } else if SlotPrefix <= t {
        forall x ensures x in Placed(r) <==> x in Placed(b) {
          SlotDropCount(b, active, t, d, x);
          if x.id == active {
            var occ := Occupant(b.slots, t);
            if occ == Some(x) {
              assert x in Placed(b);
            }
            if x in Placed(b) {
              assert x == d;
            }
          }
        }
      }
    }
  }

  /** Any drop keeps the slot keys distinct. */
  lemma DropKeepsKeys(b: Board, active: string, over: Option<string>)
    requires KeysDistinct(b.slots)
    ensures KeysDistinct(Drop(b, active, over).slots)
  {
    var r := Drop(b, active, over);
    if over.Some? && Dragged(b, active).Some? && over.value != PoolId && SlotPrefix <= over.value {
      var cleared := ClearId(b.slots, active);
      assert r.slots == Put(cleared, over.value, Dragged(b, active));
      if over.value !in Keys(cleared) {
        AppendKeepsDistinct(Keys(cleared), over.value);
      }
    }
  }


  /** A run of drags without self-drops keeps every card exactly once. */
  lemma {:induction false} ReplayConserves(b: Board, moves: seq<Move>)
    requires Unique(b)
    requires NoSelfDrops(b, moves)
    ensures Placed(Replay(b, moves)) == Placed(b)
    ensures Unique(Replay(b, moves))
    decreases |moves|
  {
    if |moves| > 0 {
      var next := Drop(b, moves[0].active, moves[0].over);
      DropConserves(b, moves[0].active, moves[0].over);
      ReplayConserves(next, moves[1..]);
    }
  }

  // ---------------------------------------------------------------------
  // Drop on the pool
  // ---------------------------------------------------------------------

  /** Dropping card d on the pool: d is appended only when the pool did not
      already have it, and every slot holding it is emptied. */
  lemma DropOnPool(b: Board, d: Item)
    requires Coherent(b)
    requires d in Placed(b)
    ensures Drop(b, d.id, Some(PoolId)).pool == if d in b.pool then b.pool else b.pool + [d]
    ensures forall k :: Occupant(Drop(b, d.id, Some(PoolId)).slots, k)
              == if Occupant(b.slots, k) == Some(d) then None else Occupant(b.slots, k)
    ensures Keys(Drop(b, d.id, Some(PoolId)).slots) == Keys(b.slots)
  {
    assert Dragged(b, d.id) == Some(d);
    assert FindInPool(b.pool, d.id).Some? <==> d in b.pool by {
      if FindInPool(b.pool, d.id).Some? {
        assert FindInPool(b.pool, d.id).value == d;
      }
    }
    var r := Drop(b, d.id, Some(PoolId));
    assert r == Board(if d in b.pool then b.pool else b.pool + [d], ClearId(b.slots, d.id));
    forall k ensures Occupant(Drop(b, d.id, Some(PoolId)).slots, k)
              == if Occupant(b.slots, k) == Some(d) then None else Occupant(b.slots, k)
    {
      OccupantClear(b.slots, d.id, k);
      var o := Occupant(b.slots, k);
      if o.Some? && o.value.id == d.id {
        assert o.value in Placed(b);
      }
    }
  }

  /** Dropping on the pool twice has the effect of dropping once. */
  lemma DropOnPoolIdempotent(b: Board, active: string)
    ensures Drop(Drop(b, active, Some(PoolId)), active, Some(PoolId)) == Drop(b, active, Some(PoolId))
  {
    var r := Drop(b, active, Some(PoolId));
    if Dragged(b, active).Some? {
      var d := Dragged(b, active).value;
      if FindInPool(b.pool, active).None? {
        assert d in r.pool;
      }
      assert FindInPool(r.pool, active).Some?;
      ClearIdIdempotent(b.slots, active);
    }
  }

  // ---------------------------------------------------------------------
  // The board startExam builds
  // ---------------------------------------------------------------------

  /** Slots that are all empty hold no cards. */
  lemma {:induction false} EmptySlotsHoldNothing(slots: seq<Slot>)
    requires forall i :: 0 <= i < |slots| ==> slots[i].held.None?
    ensures SlotBag(slots) == multiset{}
  {
    if |slots| > 0 {
      EmptySlotsHoldNothing(slots[1..]);
    }
  }

  /** The board startExam builds: all cards in the pool, each exactly once;
      one empty slot `prompt-${i}` per prompt, under distinct keys, and no
      other slot. */
  lemma NewBoardFacts(promptCount: nat, answers: seq<string>)
    ensures var b := NewBoard(promptCount, answers);
            && Placed(b) == multiset(Cards(answers))
            && Unique(b)
            && |Keys(b.slots)| == promptCount
            && (forall i :: 0 <= i < promptCount ==> Keys(b.slots)[i] == SlotKey(i))
            && KeysDistinct(b.slots)
            && (forall i :: 0 <= i < promptCount ==> Occupant(b.slots, SlotKey(i)) == None)
  {
    var b := NewBoard(promptCount, answers);
    EmptySlotsHoldNothing(b.slots);
    FreshKeysDistinct(promptCount);
    CardsUnique(answers);
    assert Placed(b) == multiset(Cards(answers));
  }

  /** The fresh slot keys `prompt-0`, `prompt-1`, ... are pairwise different. */
  lemma FreshKeysDistinct(n: nat)
    ensures KeysDistinct(FreshSlots(n))
  {
    var ks := Keys(FreshSlots(n));
    forall i, j | 0 <= i < j < |ks| ensures ks[i] != ks[j] {
      if ks[i] == ks[j] {
        PrefixedInjective(SlotPrefix, i, j);
      }
    }
  }

  /** The fresh cards are pairwise different, each counted once, and their
      ids tell them apart. */
  lemma CardsUnique(answers: seq<string>)
    ensures Unique(Board(Cards(answers), []))
  {
    var cards := Cards(answers);
    var b := Board(cards, []);
    assert Placed(b) == multiset(cards);
    assert Distinct(cards) by {
      forall i, j | 0 <= i < j < |cards| ensures cards[i] != cards[j] {
        if cards[i] == cards[j] {
          PrefixedInjective(ItemPrefix, i, j);
        }
      }
    }
    forall x ensures Placed(b)[x] <= 1 {
      DistinctCountsOnce(cards, x);
    }
    forall x, y | x in Placed(b) && y in Placed(b) && x.id == y.id ensures x == y {
      var i :| 0 <= i < |cards| && cards[i] == x;
      var j :| 0 <= j < |cards| && cards[j] == y;
      PrefixedInjective(ItemPrefix, i, j);
    }
  }

  /** From the board startExam builds, any run of drags without self-drops
      leaves every answer card in exactly one place. */
  lemma SessionCardsExactlyOnce(promptCount: nat, answers: seq<string>, moves: seq<Move>)
    requires NoSelfDrops(NewBoard(promptCount, answers), moves)
    ensures forall i :: 0 <= i < |answers| ==>
              Placed(Replay(NewBoard(promptCount, answers), moves))[Item(ItemId(i), answers[i])] == 1
  {
    var b := NewBoard(promptCount, answers);
    NewBoardFacts(promptCount, answers);
    ReplayConserves(b, moves);
    forall i | 0 <= i < |answers|
      ensures Placed(Replay(b, moves))[Item(ItemId(i), answers[i])] == 1
    {
      assert Cards(answers)[i] == Item(ItemId(i), answers[i]);
    }
  }
}
